=== FILE: README.md ===
# Statement extractor and keyword categoriser, in Dafny

This project models two pieces of the personal-finance application.

The first is the bank-statement text extractor `pdf_to_json` in
`backend/main.py`. The page text of a statement has already been split into
lines. A cursor walks over them. A line that contains "DEBIT" or "CREDIT" is
a marker and starts a four-line transaction block. From the block the
extractor reads:

- a date prefix and a remainder from the marker line;
- the transaction type, the description and the amount from the remainder;
- a time and a transaction id from line i+1;
- a UTR number from line i+2, which is then discarded;
- a payer token from line i+3, which is also discarded.

It then renders `createdAt` and `date` from the parsed date-time and emits a
seven-key record. After a block that yields a record the cursor moves on by
four lines. After a block that faults, and after any other line, it moves on
by one.

The second is the keyword categoriser `getCategoryFromCSV` in
`app/api/plaid/exchangetoken/route.js`. It lowercases the description and
walks the rows of the categories table in order. It skips rows without
keywords. It splits each row's Keywords on ",", then trims and lowercases
each piece. It answers the Category of the first row that has a keyword
occurring in the description, and "Uncategorized" when no row does.

Modules:

- `Wrappers` (wrappers.dfy): `Option` and `Result`.
- `Text` (text.dfy): the string operations the code relies on, each with the
  semantics of the language it comes from:
  - Python `in`, `split(sep)`, `join`, `replace(pat, "")`, `strip()` and
    `split()`;
  - JavaScript `includes`, `split(sep)` and `trim()`;
  - whitespace as `str.isspace()` and as ECMAScript `trim()` define it.
- `Timestamps` (timestamps.dfy): the parsed date-time and its two
  renderings:
  - `isoformat() + "Z"`;
  - `strftime("%Y-%m-%dT00:00:00.000Z")`.
- `Blocks` (blocks.dfy): the marker test and everything read from one block.
- `Statement` (statement.dfy): the cursor loop. `Outcomes` is what the loop
  body would do at each index. `Walk` moves the cursor over those outcomes,
  and `ExtractTransactions` is the loop itself.
- `Categories` (categories.dfy): the categoriser.

Inputs that come from outside the code are parameters:

- The line buffer is a parameter.
- The categories table is a parameter, as a sequence of rows whose fields
  may be missing.
- `float(text)` and `datetime.strptime(text, "%b %d, %Y %H:%M")` are the two
  function fields of `Blocks.Library`. None stands for the exception the
  source catches.
- JavaScript `toLowerCase` is a parameter `lower`.

In the following places the code does something other than what a reader of
its comments or its field names might expect, and the model follows the code:

- The amount is the value `float` parses from the amount text, so "₹-5"
  gives -5. The amount is not necessarily non-negative.
- The comment at backend/main.py:37 calls the first part of the line "the
  date", but the prefix is cut with `split(" ")`, on single spaces, and not on
  runs of whitespace. `Blocks.DatePrefixShape` states this: the prefix is
  the line up to its third space.
- `replace` deletes every copy of the prefix text in the marker line, not
  only the leading one. `Blocks.RemainderAfterPrefix` states this.
- The payer line faults when it is non-empty but consists only of
  whitespace, because `split()[-1]` then raises IndexError. The block is
  then dropped and the cursor advances by one. This is the only way a block
  can fault (`Blocks.ExtractBlock`, `Blocks.PayerToken`).

## Model

| member | source | states |
|---|---|---|
| Blocks.IsMarker | backend/main.py:35 | "DEBIT" or "CREDIT" occurs anywhere in the line, case-sensitively (what that means is `Text.ContainsIff`) |
| Text.ContainsIff | backend/main.py:35 | `p in s` holds exactly when `p` occurs in `s` at some index |
| Statement.NoMarkerNoRecords | backend/main.py:32-35 | a buffer with no line containing "DEBIT" or "CREDIT" from the cursor on yields no record |
| Statement.SkipNonMarkers | backend/main.py:111-112 | lines that are not markers are passed over one by one: the scan from `i` equals the scan from the next marker |
| Text.Split | backend/main.py:38 | Python `s.split(sep)` with a non-empty separator: never an empty list (its pieces are characterised by `Text.SplitJoin`, `Text.SplitPieces`, `Text.HeadOfHead` and `Text.SplitLast`) |
| Text.Join | backend/main.py:39 | `sep.join(parts)`: the inverse of `Text.Split`, by `Text.SplitJoin` |
| Text.SplitJoin | backend/main.py:38-39 | `sep.join(s.split(sep)) == s`: splitting loses nothing |
| Text.SplitPieces | backend/main.py:38 | no piece of `s.split(sep)` contains `sep` |
| Blocks.DatePrefix | backend/main.py:38-39 | `" ".join(line.split(" ")[0:3])` (its shape is `Blocks.DatePrefixShape`) |
| Blocks.DatePrefixShape | backend/main.py:38-39 | the date prefix is a prefix of the line with at most two spaces. It is the line up to its third space, or the whole line when the line has fewer than three spaces. It is non-empty for a non-empty line |
| Text.RemoveAll | backend/main.py:40 | `replace(pat, "")` leaves a string without `pat` unchanged and never lengthens it |
| Text.FindFromFirst | backend/main.py:40-44 | the search behind `in`, `split` and `replace` finds the FIRST occurrence at or after its start, and reports none only when there is none |
| Text.RemoveAllStep | backend/main.py:40 | `replace(pat, "")` keeps the text before the first occurrence of `pat`, drops that occurrence, and carries on with the text after it. With `Text.FindFromFirst` this is left-to-right, non-overlapping deletion of every copy |
| Blocks.Remainder | backend/main.py:40 | `line.replace(date_prefix, "").strip()` (characterised by `Blocks.RemainderAfterPrefix`, `Text.RemoveAllStep` and `Text.Strip`) |
| Blocks.RemainderAfterPrefix | backend/main.py:40 | the leading copy of the prefix is removed, and every later copy of the same text in the rest of the line is removed too |
| Text.StripEmpty | backend/main.py:40 | `strip()` gives "" exactly when the string is all whitespace |
| Text.StripIdempotent | backend/main.py:40 | stripping twice is stripping once |
| Text.Strip | backend/main.py:40 | the stripped text is a slice of the input that neither starts nor ends with whitespace |
| Text.StripBounds | backend/main.py:40 | everything `strip()` removes, at either end, is whitespace |
| Blocks.Classify | backend/main.py:43-51 | "DEBIT" exactly when "Paid to" occurs; "CREDIT" exactly when only "Received from" occurs; "" otherwise, with an empty description. The description of a debit is the stripped `Segment` of the remainder between "Paid to" and "DEBIT", that of a credit the stripped `Segment` between "Received from" and "CREDIT". It holds neither of its two keys and is trimmed |
| Blocks.SegmentBounds | backend/main.py:44-47 | the raw description starts right after the first key, is free of the key and of the stop word, and is ended by an occurrence of one of them or by the end of the remainder. For the source's four keys this run is the only one of its kind, because none of them can overlap another key or itself; for separators such as "cd" and "bc" it would not be |
| Text.HeadOfHead | backend/main.py:44 | `s.split(a)[0].split(b)[0]` is a prefix of `s` free of both `a` and `b`, ended by an occurrence of one of them or by the end of `s` |
| Text.SplitLast | backend/main.py:55 | `split(sep)[-1]` is a suffix of `s` with `sep` right before it that holds no `sep`: the text after the last of the occurrences `split` finds left to right. For "₹", "Transaction ID" and "UTR No.", which cannot overlap themselves, that is the text after the last occurrence |
| Blocks.AmountText | backend/main.py:55 | `remainder.split("₹")[-1].replace(",", "").strip()` (its shape is `Blocks.AmountTextShape`) |
| Blocks.AmountTextShape | backend/main.py:55 | the amount text comes from the suffix after the last "₹". It holds no "₹", no "," and no surrounding whitespace |
| Blocks.Amount | backend/main.py:54-61 | 0 without a "₹"; otherwise the parse of the amount text, or 0 when the parse fails; never an error |
| Blocks.TimeToken | backend/main.py:64-65 | the time is a non-empty, whitespace-free token: the first token of line i+1, or "00:00" when that line has none |
| Text.Words | backend/main.py:65 | Python `s.split()`: the maximal runs of non-whitespace (characterised by `Text.WordsEmpty`, `Text.WordsTokens`, `Text.FirstWord` and `Text.LastWord`) |
| Text.WordsEmpty | backend/main.py:65 | `split()` is empty exactly when the string is all whitespace |
| Text.WordsTokens | backend/main.py:65 | every token of `split()` is non-empty and free of whitespace |
| Text.FirstWord | backend/main.py:65 | `split()[0]` starts after the leading whitespace and is ended by whitespace or by the end of the string |
| Blocks.Normalize | backend/main.py:68-74 | `createdAt` and `date` are both "" exactly when the parse fails. Otherwise `createdAt` has the "YYYY-MM-DDTHH:MM:SSZ" shape, `date` the "YYYY-MM-DDT00:00:00.000Z" shape, they share the calendar day, and `createdAt` reads back to the parsed date-time |
| Timestamps.CreatedAtRoundTrip | backend/main.py:70 | reading the `createdAt` string back gives the date-time it was rendered from |
| Timestamps.CreatedAt | backend/main.py:70 | `isoformat() + "Z"` of a parsed date-time is an RFC 3339 date-time with the "Z" offset |
| Timestamps.DayStamp | backend/main.py:71 | the `date` string is a calendar day at midnight UTC with milliseconds |
| Timestamps.SameDay | backend/main.py:70-71 | `createdAt` and `date` both begin with the same "YYYY-MM-DD" calendar day of the parsed date-time |
| Blocks.LabelValue | backend/main.py:76-79 | the transaction id is "" when the key is absent; it never contains the key and is trimmed |
| Blocks.TransactionId | backend/main.py:76-79 | the value after the last "Transaction ID" in line i+1, stripped, or "" without the key (by `Blocks.LabelValue` and `Blocks.LabelValueAfterLast`) |
| Blocks.UtrNo | backend/main.py:82-86 | the value after the last "UTR No." in line i+2, stripped, or "" without the key; it never fails, so it never affects the block (`Blocks.BlockIgnoresUtrAndPayer`) |
| Blocks.LabelValueAfterLast | backend/main.py:76-77 | the value is the strip of a suffix of the line that has the key right before it and holds no copy of the key, so it is read after the LAST occurrence of the key |
| Blocks.PayerToken | backend/main.py:89-93 | reading the payer line fails exactly when the line is non-empty and all whitespace. An empty line gives "", and any other line gives a non-empty token free of whitespace |
| Blocks.PayerTokenIsLast | backend/main.py:90-91 | on a line with a token, the payer token is `split()[-1]` itself (the `strip()` after it changes nothing) |
| Text.LastWord | backend/main.py:91 | `split()[-1]` is the last token: it ends where the trailing whitespace starts, and whitespace or the start of the string comes right before it |
| Blocks.BlockRecord | backend/main.py:96-104 | the record carries the caller's user id. Its amount is `Amount` of the remainder, its type and description are those `Classify` reads from the remainder, its transaction id is `TransactionId` of line i+1, and its two timestamps are those `Normalize` renders from the date prefix and the time token of line i+1. So its type is "DEBIT", "CREDIT" or "", its timestamps are both present or both absent, and it has no transaction id without the key and amount 0 without "₹" |
| Blocks.ExtractBlock | backend/main.py:88-110 | a block faults exactly when line i+3 is non-empty and all whitespace, the case where `split()[-1]` raises and the block is dropped |
| Blocks.BlockYields | backend/main.py:95-105 | a block that does not fault yields the record read from the marker line and line i+1 |
| Blocks.MarkerOnLastLine | backend/main.py:64-89 | a marker on the last line still yields a record, with transaction id "". Its timestamps are empty exactly when the prefix followed by " 00:00" does not parse, and otherwise `createdAt` reads back to that parse |
| Blocks.MissingLineRecord | backend/main.py:64-79 | with line i+1 missing, the transaction id is "". The timestamps are empty exactly when the prefix followed by " 00:00" does not parse, and otherwise `createdAt` reads back to that parse |
| Blocks.BlockIgnoresUtrAndPayer | backend/main.py:81-104 | the UTR line and the payer token never reach the output: two buffers that agree on the marker line, on line i+1 and on whether line i+3 is blank but non-empty give the same block result |
| Statement.Walk | backend/main.py:32-112 | the cursor over the per-line outcomes: past a record it moves by 4, otherwise by 1 (characterised by `Statement.RecordOrigin`, `Statement.OriginsApart` and `Statement.SkipNonMarkers`) |
| Statement.Scan | backend/main.py:31-114 | the records the loop appends from cursor `i` on (the loop computes it, by `Statement.ExtractTransactions`) |
| Statement.Advance | backend/main.py:33-112 | the cursor moves by 4 exactly when a record is emitted and by 1 otherwise. A record is emitted exactly at a marker whose block does not fault. The scan from `i` is that record followed by the scan from the new cursor |
| Statement.RecordOrigin | backend/main.py:35-107 | every record comes from a marker line at or after the cursor whose block yields exactly that record |
| Statement.OriginsApart | backend/main.py:105-107 | records come in line order from distinct markers, each at least four lines after the previous one |
| Statement.RecordFields | backend/main.py:96-104 | every record carries the caller's user id and one of the three types, and has both timestamps or neither |
| Statement.RecordCount | backend/main.py:32-112 | there are never more records than marker lines |
| Statement.ExtractTransactions | backend/main.py:31-114 | the loop returns the scan from line 0: the records of the non-faulting blocks in line order, no more of them than there are markers |
| Categories.Keywords | app/api/plaid/exchangetoken/route.js:69 | `Keywords.split(",").map((k) => k.trim().toLowerCase())`: one keyword per comma-separated piece, each trimmed and lowercased (with `Categories.KeywordsCount`) |
| Categories.Hits | app/api/plaid/exchangetoken/route.js:67-71 | a row with a non-empty Keywords field one of whose keywords occurs in the lowercased description |
| Categories.FirstMatch | app/api/plaid/exchangetoken/route.js:66-76 | the Category of the first row that hits, or "Uncategorized" (characterised by `Categories.FirstHitWins`, `Categories.NoHitDefault` and `Categories.AnswerFromRow`) |
| Categories.CategoryOf | app/api/plaid/exchangetoken/route.js:64-77 | `getCategoryFromCSV(description)`: `FirstMatch` on the lowercased description (the loops compute it, by `Categories.GetCategory`) |
| Categories.KeywordsCount | app/api/plaid/exchangetoken/route.js:69 | a Keywords field with n commas gives n + 1 keywords, empty ones included |
| Categories.FirstHitWins | app/api/plaid/exchangetoken/route.js:66-74 | the first row with a keyword occurring in the lowercased description names the category, whatever follows it |
| Categories.NoHitDefault | app/api/plaid/exchangetoken/route.js:76 | without such a row the answer is "Uncategorized" |
| Categories.AnswerFromRow | app/api/plaid/exchangetoken/route.js:66-76 | any other answer is the Category of a matching row with no matching row before it |
| Categories.SkippedRowIrrelevant | app/api/plaid/exchangetoken/route.js:67 | a row whose Keywords field is missing or empty changes nothing, wherever it stands |
| Categories.LaterRowsIrrelevant | app/api/plaid/exchangetoken/route.js:70-73 | once some row of a table hits, rows appended after the table are never consulted, whatever the deciding row's Category is |
| Categories.EmptyKeywordHitsAll | app/api/plaid/exchangetoken/route.js:69-71 | an empty keyword occurs in every description, so its row catches every description that reaches it |
| Categories.BlankPieceEmptyKeyword | app/api/plaid/exchangetoken/route.js:69 | a blank piece between commas, such as one left by a trailing comma, trims to the empty keyword |
| Categories.EmptyDescriptionHits | app/api/plaid/exchangetoken/route.js:64-71 | the lowercased empty description is matched exactly by rows that have an empty keyword |
| Categories.EmptyDescriptionDefault | app/api/plaid/exchangetoken/route.js:63-77 | `getCategoryFromCSV("")`, the parameter's default, answers "Uncategorized" when no row that is read has an empty keyword and lowercasing keeps "" empty |
| Categories.GetCategory | app/api/plaid/exchangetoken/route.js:64-77 | the nested loops return the same answer as the row-by-row definition |

## Left out

- Opening the PDF and extracting page text (backend/main.py:22-29) is I/O. The model starts from the list of lines.
- The body of `float(text)` and of `datetime.strptime(text, "%b %d, %Y %H:%M")` are library code. Both are parameters (`Blocks.Library`). The model therefore does not check whether a parsed day exists in its month.
- The `print` on a skipped block (backend/main.py:109) is logging. It is not modelled.
- JavaScript `toLowerCase` is a parameter: full Unicode case mapping is not modelled. The one fact used about it, `lower("") == ""`, is a `requires` of the lemmas that need it (`Categories.BlankPieceEmptyKeyword`, `Categories.EmptyDescriptionDefault`).
- Reading the categories CSV file and `Papa.parse` (app/api/plaid/exchangetoken/route.js:58-61) are I/O. The table is a parameter.
- The rest of route.js is not part of this model: the Plaid client, the database writes and the HTTP handler. The same goes for the FastAPI endpoints of backend/main.py and the user interface.
- Blocks.Amount: the source's fallback amount is the integer 0, which JSON serialises as `0` rather than `0.0`. The model uses the real number 0. The amount is an exact real number, not an IEEE double: `float` also accepts "inf", "nan" and overflowing text such as "1e999", giving infinity or NaN, and it rounds to binary. `Library.parseDecimal` returns a `real`, which holds neither, so those results and the rounding are not modelled.
- Timestamps.DayStamp: `strftime("%Y")` pads years below 1000 to four digits on some C libraries but not on others. The model always pads to four digits, as `isoformat()` does.
- Statement.Outcomes: the source computes a block only where the cursor stops. The model states what the loop body would compute at every index. The two agree because a block's result depends only on its index.
- Exceptions the try block could raise besides the IndexError of the payer line, such as running out of memory, are not modelled.

=== FILE: blocks.dfy ===
/** Field extraction for one transaction block of a bank statement: the
    marker line at index `i` and the three lookahead lines after it
    (backend/main.py, the body of the `try` in `pdf_to_json`). */
module Blocks {
  import opened Wrappers
  import opened Text
  import opened Timestamps

  /** One emitted transaction: the seven keys of the source's dictionary. */
  datatype Record = Record(
    amount: real,
    createdAt: string,
    date: string,
    description: string,
    transactionId: string,
    transactionType: string,
    userId: string)

  /** The two library parsers the extractor calls: Python's `float(text)`
      (None where it raises ValueError) and
      `datetime.strptime(text, "%b %d, %Y %H:%M")` (None where it raises). */
  datatype Library = Library(
    parseDecimal: string -> Option<real>,
    parseDateTime: string -> Option<DateTime>)

  /** What one block yields: a record, or the fault that made the source
      drop it (its `except Exception` branch). */
  datatype BlockResult = Emitted(record: Record) | Fault(reason: string)

  /** The transaction type and description read from the remainder. */
  datatype Classification = Classification(kind: string, description: string)

  /** The two timestamp fields of a record. */
  datatype Stamps = Stamps(createdAt: string, date: string)

  const Rupee: string := "₹"

  /** A marker line starts a block: it contains "DEBIT" or "CREDIT" anywhere,
      case-sensitively. */
  predicate IsMarker(line: string) {
    Contains(line, "DEBIT") || Contains(line, "CREDIT")
  }

  /** `lines[j]`, or "" when `j` is past the end of the buffer. */
  function LineAt(lines: seq<string>, j: nat): string {
    if j < |lines| then lines[j] else ""
  }

  // ---------------------------------------------------------------------
  // The marker line
  // ---------------------------------------------------------------------

  /** `" ".join(line.split(" ")[0:3])`: the heuristic date prefix. */
  function DatePrefix(line: string): string {
    var tokens := Split(line, " ");
    Join(tokens[..if |tokens| < 3 then |tokens| else 3], " ")
  }

  /** The date prefix is the line up to (not including) its third space, or
      the whole line when it has fewer than three spaces. */
  lemma DatePrefixShape(line: string)
    ensures var p := DatePrefix(line);
      |p| <= |line| && line[..|p|] == p
      && multiset(p)[' '] <= 2
      && (|p| < |line| ==> line[|p|] == ' ' && multiset(p)[' '] == 2)
      && (line != "" ==> p != "")
  {
    var tokens := Split(line, " ");
    TokensSpaceFree(line);
    if |tokens| <= 3 {
      DatePrefixFewTokens(line);
    } else {
      DatePrefixManyTokens(line);
    }
  }

  /** No token of `line.split(" ")` holds a space. */
  lemma TokensSpaceFree(line: string)
    ensures forall k :: 0 <= k < |Split(line, " ")| ==> ' ' !in Split(line, " ")[k]
  {
    var tokens := Split(line, " ");
    SplitPieces(line, " ");
    forall k | 0 <= k < |tokens|
      ensures ' ' !in tokens[k]
    {
      ContainsChar(tokens[k], ' ');
    }
  }

  lemma DatePrefixFewTokens(line: string)
    requires |Split(line, " ")| <= 3
    requires forall k :: 0 <= k < |Split(line, " ")| ==> ' ' !in Split(line, " ")[k]
    ensures DatePrefix(line) == line && multiset(line)[' '] <= 2
  {
    var tokens := Split(line, " ");
    assert tokens[..|tokens|] == tokens;
    SplitJoin(line, " ");
    JoinCount(tokens, ' ');
  }

  lemma DatePrefixManyTokens(line: string)
    requires |Split(line, " ")| > 3
    requires forall k :: 0 <= k < |Split(line, " ")| ==> ' ' !in Split(line, " ")[k]
    ensures var p := DatePrefix(line);
      |p| < |line| && line[..|p|] == p && line[|p|] == ' '
      && multiset(p)[' '] == 2 && p != ""
  {
    var tokens := Split(line, " ");
    var p := DatePrefix(line);
    var head := tokens[..3];
    assert tokens == head + tokens[3..];
    SplitJoin(line, " ");
    JoinAppend(head, tokens[3..], " ");
    JoinCount(head, ' ');
    assert line == p + " " + Join(tokens[3..], " ");
    assert line[..|p|] == p;
  }

  /** `line.replace(date_prefix, "").strip()`. */
  function Remainder(line: string): string {
    Strip(RemoveAll(line, DatePrefix(line)), PyWhitespace)
  }

  /** The leading copy of the prefix is removed, and so is every later copy
      of the same text in the rest of the line. */
  lemma RemainderAfterPrefix(line: string)
    requires line != ""
    ensures var p := DatePrefix(line);
      |p| <= |line| && Remainder(line) == Strip(RemoveAll(line[|p|..], p), PyWhitespace)
  {
    DatePrefixShape(line);
    var p := DatePrefix(line);
    assert line[0..|p|] == p;
    RemoveAllLeading(line, p);
  }

  /** `rem.split(key)[1].split(stop)[0]`: the raw text after the first
      `key`. */
  function Segment(rem: string, key: string, stop: string): string
    requires key != "" && stop != "" && Contains(rem, key)
  {
    SplitSecond(rem, key);
    Split(Split(rem, key)[1], stop)[0]
  }

  /** The segment starts right after the first `key`, contains neither
      `key` nor `stop`, and is ended by an occurrence of one of them or by
      the end of `rem`. */
  lemma SegmentBounds(rem: string, key: string, stop: string)
    requires key != "" && stop != "" && Contains(rem, key)
    ensures RunBetween(rem, Find(rem, key) + |key|, Segment(rem, key, stop), key, stop)
  {
    var start := Find(rem, key) + |key|;
    SplitSecond(rem, key);
    HeadOfHead(rem[start..], key, stop);
    RunShift(rem, start, Segment(rem, key, stop), key, stop);
  }

  /** The type and description: "Paid to" is looked for first and gives a
      debit described by the text up to "DEBIT"; otherwise "Received from"
      gives a credit described by the text up to "CREDIT"; otherwise both
      are empty. */
  function Classify(rem: string): (c: Classification)
    ensures c.kind == "DEBIT" <==> Contains(rem, "Paid to")
    ensures c.kind == "CREDIT" <==> !Contains(rem, "Paid to") && Contains(rem, "Received from")
    ensures c.kind == "" <==> !Contains(rem, "Paid to") && !Contains(rem, "Received from")
    ensures c.kind == "" ==> c.description == ""
    ensures c.kind == "DEBIT" ==> c.description == Strip(Segment(rem, "Paid to", "DEBIT"), PyWhitespace)
    ensures c.kind == "CREDIT" ==> c.description == Strip(Segment(rem, "Received from", "CREDIT"), PyWhitespace)
    ensures c.kind == "DEBIT" ==> !Contains(c.description, "Paid to") && !Contains(c.description, "DEBIT")
    ensures c.kind == "CREDIT" ==> !Contains(c.description, "Received from") && !Contains(c.description, "CREDIT")
    ensures c.description != "" ==> c.description[0] !in PyWhitespace && c.description[|c.description| - 1] !in PyWhitespace
  {
    if Contains(rem, "Paid to") then
      SegmentBounds(rem, "Paid to", "DEBIT");
      var d := Segment(rem, "Paid to", "DEBIT");
      StripKeepsAbsence(d, PyWhitespace, "Paid to");
      StripKeepsAbsence(d, PyWhitespace, "DEBIT");
      Classification("DEBIT", Strip(d, PyWhitespace))
    else if Contains(rem, "Received from") then
      SegmentBounds(rem, "Received from", "CREDIT");
      var d := Segment(rem, "Received from", "CREDIT");
      StripKeepsAbsence(d, PyWhitespace, "Received from");
      StripKeepsAbsence(d, PyWhitespace, "CREDIT");
      Classification("CREDIT", Strip(d, PyWhitespace))
    else
      Classification("", "")
  }

  /** The amount text: after the LAST rupee sign, commas removed, stripped. */
  function AmountText(rem: string): string
    requires Contains(rem, Rupee)
  {
    Strip(RemoveAll(Last(Split(rem, Rupee)), ","), PyWhitespace)
  }

  /** The amount text is read from the text after the last rupee sign and is
      free of rupee signs, commas and surrounding whitespace. */
  lemma AmountTextShape(rem: string)
    requires Contains(rem, Rupee)
    ensures var tail := Last(Split(rem, Rupee)); var a := AmountText(rem);
      |tail| + 1 <= |rem| && rem[|rem| - |tail|..] == tail && rem[|rem| - |tail| - 1] == '₹'
      && '₹' !in tail && a == Strip(RemoveAll(tail, ","), PyWhitespace)
      && ',' !in a && '₹' !in a
      && (a != "" ==> a[0] !in PyWhitespace && a[|a| - 1] !in PyWhitespace)
  {
    AmountTail(rem);
    var tail := Last(Split(rem, Rupee));
    var cleaned := RemoveAll(tail, ",");
    RemoveAllChar(tail, ',');
    RemoveAllKeepsChar(tail, ',', '₹');
    StripKeepsChar(cleaned, PyWhitespace, ',');
    StripKeepsChar(cleaned, PyWhitespace, '₹');
  }

  /** The text after the last rupee sign is a suffix preceded by the sign. */
  lemma AmountTail(rem: string)
    requires Contains(rem, Rupee)
    ensures var tail := Last(Split(rem, Rupee));
      |tail| + 1 <= |rem| && rem[|rem| - |tail|..] == tail && rem[|rem| - |tail| - 1] == '₹'
      && '₹' !in tail
  {
    var parts := Split(rem, Rupee);
    var tail := Last(parts);
    SplitLast(rem, Rupee);
    SplitPieces(rem, Rupee);
    assert !Contains(parts[|parts| - 1], Rupee);
    ContainsChar(tail, '₹');
    assert rem[|rem| - |tail| - 1..|rem| - |tail|] == Rupee;
  }

  /** Deleting one character never introduces another. */
  lemma RemoveAllKeepsChar(s: string, c: char, d: char)
    requires d !in s
    ensures d !in RemoveAll(s, [c])
  {
    var parts := Split(s, [c]);
    SplitJoin(s, [c]);
    forall k | 0 <= k < |parts|
      ensures d !in parts[k]
    {
      JoinMember(parts, [c], k);
      MissingFromSub(parts[k], s, d);
    }
    JoinWithoutChar(parts, d);
  }

  /** A character missing from `b` is missing from every sub-multiset of it. */
  lemma MissingFromSub(a: string, b: string, d: char)
    requires multiset(a) <= multiset(b) && d !in b
    ensures d !in a
  {
    assert multiset(b)[d] == 0;
  }

  /** Every piece's characters are characters of the joined string. */
  lemma {:induction false} JoinMember(parts: seq<string>, sep: string, k: int)
    requires 0 <= k < |parts|
    ensures multiset(parts[k]) <= multiset(Join(parts, sep))
  {
    if |parts| > 1 {
      var rest := Join(parts[1..], sep);
      assert Join(parts, sep) == parts[0] + sep + rest;
      assert multiset(parts[0] + sep + rest) == multiset(parts[0]) + multiset(sep) + multiset(rest);
      if k > 0 {
        JoinMember(parts[1..], sep, k - 1);
      }
    }
  }

  /** The amount: the parse of the amount text when a rupee sign is present
      and the parse succeeds, and 0 in every other case; never a failure. */
  function Amount(rem: string, lib: Library): (a: real)
    ensures !Contains(rem, Rupee) ==> a == 0.0
    ensures Contains(rem, Rupee) ==> a == lib.parseDecimal(AmountText(rem)).GetOr(0.0)
  {
    if Contains(rem, Rupee) then
      match lib.parseDecimal(AmountText(rem))
      case Some(v) => v
      case None => 0.0
    else 0.0
  }

  // ---------------------------------------------------------------------
  // The lookahead lines
  // ---------------------------------------------------------------------

  /** `txn_line.split()[0]`, or "00:00" when the line has no token. */
  function TimeToken(line: string): (t: string)
    ensures t != "" && NoneIn(t, PyWhitespace)
    ensures AllIn(line, PyWhitespace) ==> t == "00:00"
    ensures !AllIn(line, PyWhitespace) ==> TokenAt(line, PyWhitespace, LeadingSpace(line, PyWhitespace), t)
  {
    var words := Words(line, PyWhitespace);
    WordsEmpty(line, PyWhitespace);
    WordsTokens(line, PyWhitespace);
    if words != [] then
      FirstWord(line, PyWhitespace);
      words[0]
    else
      "00:00"
  }

  /** `line.split(key)[-1].strip()` when `key` occurs in `line`, else "". */
  function LabelValue(line: string, key: string): (r: string)
    requires key != ""
    ensures !Contains(line, key) ==> r == ""
    ensures !Contains(r, key)
    ensures r != "" ==> r[0] !in PyWhitespace && r[|r| - 1] !in PyWhitespace
  {
    if Contains(line, key) then
      SplitPieces(line, key);
      var parts := Split(line, key);
      assert !Contains(parts[|parts| - 1], key);
      StripKeepsAbsence(Last(parts), PyWhitespace, key);
      Strip(Last(parts), PyWhitespace)
    else
      ContainedInEmpty(key);
      ""
  }

  /** A key value is read from the text after the LAST occurrence of the
      key: a suffix of the line with the key right before it. */
  lemma LabelValueAfterLast(line: string, key: string)
    requires key != "" && Contains(line, key)
    ensures SepLedSuffix(line, key, Last(Split(line, key)))
    ensures !Contains(Last(Split(line, key)), key)
    ensures LabelValue(line, key) == Strip(Last(Split(line, key)), PyWhitespace)
  {
    SplitLast(line, key);
  }

  /** The transaction id: after the last "Transaction ID" in line i+1. */
  function TransactionId(line: string): string {
    LabelValue(line, "Transaction ID")
  }

  /** The UTR number: after the last "UTR No." in line i+2. The source reads
      it and never uses it; reading it cannot fail. */
  function UtrNo(line: string): string {
    LabelValue(line, "UTR No.")
  }

  /** `paid_line.split()[-1].strip()` for a non-empty line, "" for an empty
      one. A non-empty line with no token makes the index fail: the one
      fault a block can raise. */
  function PayerToken(line: string): (r: Result<string, string>)
    ensures r.Failure? <==> line != "" && AllIn(line, PyWhitespace)
    ensures line == "" ==> r == Success("")
    ensures r.Success? && line != "" ==> r.value != "" && NoneIn(r.value, PyWhitespace)
  {
    if line == "" then Success("")
    else
      var words := Words(line, PyWhitespace);
      WordsEmpty(line, PyWhitespace);
      if words == [] then Failure("list index out of range")
      else
        LastWordShape(line, PyWhitespace);
        StripNoSpace(Last(words), PyWhitespace);
        Success(Strip(Last(words), PyWhitespace))
  }

  /** On a line with a token, the payer token is `split()[-1]` itself,
      which `LastWord` places at the end of the line. */
  lemma PayerTokenIsLast(line: string)
    requires line != "" && !AllIn(line, PyWhitespace)
    ensures Words(line, PyWhitespace) != []
    ensures PayerToken(line) == Success(Last(Words(line, PyWhitespace)))
  {
    WordsEmpty(line, PyWhitespace);
    LastWordShape(line, PyWhitespace);
    StripNoSpace(Last(Words(line, PyWhitespace)), PyWhitespace);
  }

  // ---------------------------------------------------------------------
  // Timestamps and the block as a whole
  // ---------------------------------------------------------------------

  /** `createdAt` and `date` from `date_prefix + " " + time`: both rendered
      from the parsed date-time, or both "" when the parse fails. */
  function Normalize(datePrefix: string, time: string, lib: Library): (s: Stamps)
    ensures (s.createdAt == "") <==> (s.date == "")
    ensures s.createdAt == "" <==> lib.parseDateTime(datePrefix + " " + time).None?
    ensures s.createdAt != "" ==>
      IsUtcDateTime(s.createdAt) && IsUtcMidnight(s.date)
      && s.createdAt[..10] == s.date[..10]
      && ReadCreatedAt(s.createdAt) == lib.parseDateTime(datePrefix + " " + time)
  {
    match lib.parseDateTime(datePrefix + " " + time)
    case Some(t) =>
      CreatedAtRoundTrip(t);
      SameDay(t);
      Stamps(CreatedAt(t), DayStamp(t))
    case None => Stamps("", "")
  }

  /** The record a block yields when it does not fault; it depends on the
      marker line and line i+1 only. */
  function BlockRecord(line: string, txnLine: string, userId: string, lib: Library): (r: Record)
    ensures r.userId == userId
    ensures r.transactionType in {"DEBIT", "CREDIT", ""}
    ensures (r.createdAt == "") <==> (r.date == "")
    ensures r.transactionType == "DEBIT" <==> Contains(Remainder(line), "Paid to")
    ensures r.transactionType == "" ==> r.description == ""
    ensures !Contains(txnLine, "Transaction ID") ==> r.transactionId == ""
    ensures !Contains(Remainder(line), Rupee) ==> r.amount == 0.0
    ensures r.amount == Amount(Remainder(line), lib)
    ensures r.transactionType == Classify(Remainder(line)).kind
    ensures r.description == Classify(Remainder(line)).description
    ensures r.transactionId == TransactionId(txnLine)
    ensures Stamps(r.createdAt, r.date) == Normalize(DatePrefix(line), TimeToken(txnLine), lib)
  {
    var prefix := DatePrefix(line);
    var rem := Remainder(line);
    var c := Classify(rem);
    var stamps := Normalize(prefix, TimeToken(txnLine), lib);
    Record(Amount(rem, lib), stamps.createdAt, stamps.date, c.description,
           TransactionId(txnLine), c.kind, userId)
  }

  /** The block at marker index `i`: lines past the end of the buffer read
      as "". The UTR line is read and discarded; the payer line only decides
      whether the block faults. */
  function ExtractBlock(lines: seq<string>, i: nat, userId: string, lib: Library): (b: BlockResult)
    requires i < |lines|
    ensures b.Fault? <==> LineAt(lines, i + 3) != "" && AllIn(LineAt(lines, i + 3), PyWhitespace)
  {
    var txnLine := LineAt(lines, i + 1);
    var _ := UtrNo(LineAt(lines, i + 2));
    match PayerToken(LineAt(lines, i + 3))
    case Failure(e) => Fault(e)
    case Success(_) => Emitted(BlockRecord(lines[i], txnLine, userId, lib))
  }

  /** A block that does not fault yields the record read from the marker
      line and line i+1. */
  lemma BlockYields(lines: seq<string>, i: nat, userId: string, lib: Library)
    requires i < |lines|
    ensures ExtractBlock(lines, i, userId, lib).Emitted? ==>
      ExtractBlock(lines, i, userId, lib).record == BlockRecord(lines[i], LineAt(lines, i + 1), userId, lib)
  {
  }

  /** A marker on the last line still yields a record: the time defaults to
      "00:00", so the timestamps come from the parse of the prefix followed
      by " 00:00", and the transaction id defaults to "". */
  lemma MarkerOnLastLine(lines: seq<string>, userId: string, lib: Library)
    requires |lines| >= 1
    ensures ExtractBlock(lines, |lines| - 1, userId, lib)
      == Emitted(BlockRecord(lines[|lines| - 1], "", userId, lib))
    ensures BlockRecord(lines[|lines| - 1], "", userId, lib).transactionId == ""
    ensures BlockRecord(lines[|lines| - 1], "", userId, lib).createdAt == ""
      <==> lib.parseDateTime(DatePrefix(lines[|lines| - 1]) + " 00:00").None?
    ensures var r := BlockRecord(lines[|lines| - 1], "", userId, lib);
      r.createdAt != "" ==> ReadCreatedAt(r.createdAt) == lib.parseDateTime(DatePrefix(lines[|lines| - 1]) + " 00:00")
  {
    var i := |lines| - 1;
    assert LineAt(lines, i + 1) == "" && LineAt(lines, i + 3) == "";
    MissingLineRecord(lines[i], userId, lib);
  }

  /** With no line after the marker, the record has no transaction id, and
      its timestamps are rendered from the parse of the prefix followed by
      " 00:00". */
  lemma MissingLineRecord(line: string, userId: string, lib: Library)
    ensures BlockRecord(line, "", userId, lib).transactionId == ""
    ensures BlockRecord(line, "", userId, lib).createdAt == ""
      <==> lib.parseDateTime(DatePrefix(line) + " 00:00").None?
    ensures var r := BlockRecord(line, "", userId, lib);
      r.createdAt != "" ==> ReadCreatedAt(r.createdAt) == lib.parseDateTime(DatePrefix(line) + " 00:00")
  {
    WordsEmpty("", PyWhitespace);
    assert TimeToken("") == "00:00";
    assert DatePrefix(line) + " " + TimeToken("") == DatePrefix(line) + " 00:00";
    ContainedInEmpty("Transaction ID");
  }

  /** Only the marker line, line i+1 and whether line i+3 is a non-empty
      blank line matter: the UTR line and the payer token never reach the
      output. */
  lemma BlockIgnoresUtrAndPayer(lines: seq<string>, other: seq<string>, i: nat, userId: string, lib: Library)
    requires i < |lines| && i < |other| && lines[i] == other[i]
    requires LineAt(lines, i + 1) == LineAt(other, i + 1)
    requires var p, q := LineAt(lines, i + 3), LineAt(other, i + 3);
      (p != "" && AllIn(p, PyWhitespace)) == (q != "" && AllIn(q, PyWhitespace))
    ensures ExtractBlock(lines, i, userId, lib) == ExtractBlock(other, i, userId, lib)
  {
  }
}

=== FILE: categories.dfy ===
/** The keyword categoriser of the bank-link route
    (app/api/plaid/exchangetoken/route.js, `getCategoryFromCSV`): the first
    table row one of whose comma-separated keywords occurs in the lowercased
    description names the category. The table is the parsed categories CSV,
    given here as a parameter; `toLowerCase` is a parameter too. */
module Categories {
  import opened Wrappers
  import opened Text

  /** One parsed CSV row. A field the row does not have is None (JavaScript
      `undefined`). */
  datatype Row = Row(category: Option<string>, keywords: Option<string>)

  /** The answer when no row matches. */
  const Uncategorized: string := "Uncategorized"

  /** `!row.Keywords`: the row has no Keywords field, or an empty one. */
  predicate Skipped(row: Row) {
    row.keywords.None? || row.keywords.value == ""
  }

  /** `field.split(",").map((k) => k.trim().toLowerCase())`. */
  function Keywords(field: string, lower: string -> string): (r: seq<string>)
    ensures |r| == |Split(field, ",")|
    ensures forall k :: 0 <= k < |r| ==> r[k] == lower(Strip(Split(field, ",")[k], JsWhitespace))
  {
    var pieces := Split(field, ",");
    seq(|pieces|, k requires 0 <= k < |pieces| => lower(Strip(pieces[k], JsWhitespace)))
  }

  /** A Keywords field with `n` commas holds `n + 1` keywords, empty ones
      included. */
  lemma KeywordsCount(field: string, lower: string -> string)
    ensures |Keywords(field, lower)| == multiset(field)[','] + 1
  {
    var pieces := Split(field, ",");
    SplitPieces(field, ",");
    forall k | 0 <= k < |pieces|
      ensures ',' !in pieces[k]
    {
      ContainsChar(pieces[k], ',');
    }
    SplitJoin(field, ",");
    JoinCount(pieces, ',');
  }

  /** The row is not skipped and one of its keywords occurs in `lowerDesc`. */
  predicate Hits(lowerDesc: string, row: Row, lower: string -> string) {
    && !Skipped(row)
    && exists k :: 0 <= k < |Keywords(row.keywords.value, lower)|
         && Contains(lowerDesc, Keywords(row.keywords.value, lower)[k])
  }

  /** The rows in order; the first that hits decides, and `Uncategorized`
      when none does. */
  function FirstMatch(lowerDesc: string, rows: seq<Row>, lower: string -> string): Option<string> {
    if rows == [] then Some(Uncategorized)
    else if Hits(lowerDesc, rows[0], lower) then rows[0].category
    else FirstMatch(lowerDesc, rows[1..], lower)
  }

  /** `getCategoryFromCSV(description)`; None is JavaScript `undefined`, the
      answer when the deciding row has no Category field. */
  function CategoryOf(description: string, rows: seq<Row>, lower: string -> string): Option<string> {
    FirstMatch(lower(description), rows, lower)
  }

  /** The first row that hits names the category, whatever comes after it. */
  lemma {:induction false} FirstHitWins(lowerDesc: string, rows: seq<Row>, lower: string -> string, j: nat)
    requires j < |rows| && Hits(lowerDesc, rows[j], lower)
    requires forall k :: 0 <= k < j ==> !Hits(lowerDesc, rows[k], lower)
    ensures FirstMatch(lowerDesc, rows, lower) == rows[j].category
  {
    if j > 0 {
      assert !Hits(lowerDesc, rows[0], lower);
      FirstHitWins(lowerDesc, rows[1..], lower, j - 1);
    }
  }

  /** Without a row that hits, the answer is `Uncategorized`. */
  lemma {:induction false} NoHitDefault(lowerDesc: string, rows: seq<Row>, lower: string -> string)
    requires forall k :: 0 <= k < |rows| ==> !Hits(lowerDesc, rows[k], lower)
    ensures FirstMatch(lowerDesc, rows, lower) == Some(Uncategorized)
  {
    if rows != [] {
      assert !Hits(lowerDesc, rows[0], lower);
      NoHitDefault(lowerDesc, rows[1..], lower);
    }
  }

  /** Conversely, any answer other than the default comes from a row that
      hits and has no hitting row before it. */
  lemma {:induction false} AnswerFromRow(lowerDesc: string, rows: seq<Row>, lower: string -> string)
    requires FirstMatch(lowerDesc, rows, lower) != Some(Uncategorized)
    ensures exists j ::
      && 0 <= j < |rows| && Hits(lowerDesc, rows[j], lower)
      && FirstMatch(lowerDesc, rows, lower) == rows[j].category
      && (forall k :: 0 <= k < j ==> !Hits(lowerDesc, rows[k], lower))
  {
    if Hits(lowerDesc, rows[0], lower) {
      assert Hits(lowerDesc, rows[0], lower) && FirstMatch(lowerDesc, rows, lower) == rows[0].category;
    } else {
      AnswerFromRow(lowerDesc, rows[1..], lower);
      var j :| 0 <= j < |rows[1..]| && Hits(lowerDesc, rows[1..][j], lower)
        && FirstMatch(lowerDesc, rows[1..], lower) == rows[1..][j].category
        && (forall k :: 0 <= k < j ==> !Hits(lowerDesc, rows[1..][k], lower));
      forall k | 0 <= k < j + 1
        ensures !Hits(lowerDesc, rows[k], lower)
      {
        if k > 0 {
          assert rows[k] == rows[1..][k - 1];
        }
      }
      assert rows[j + 1] == rows[1..][j];
    }
  }

  /** A row without keywords changes nothing, wherever it stands. */
  lemma {:induction false} SkippedRowIrrelevant(lowerDesc: string, before: seq<Row>, row: Row, after: seq<Row>, lower: string -> string)
    requires Skipped(row)
    ensures FirstMatch(lowerDesc, before + [row] + after, lower) == FirstMatch(lowerDesc, before + after, lower)
  {
    if before == [] {
      assert before + [row] + after == [row] + after;
      assert ([row] + after)[1..] == after;
      assert before + after == after;
    } else if Hits(lowerDesc, before[0], lower) {
      assert (before + [row] + after)[0] == before[0];
      assert (before + after)[0] == before[0];
    } else {
      SkippedRowIrrelevant(lowerDesc, before[1..], row, after, lower);
      assert (before + [row] + after)[1..] == before[1..] + [row] + after;
      assert (before + after)[1..] == before[1..] + after;
    }
  }

  /** Rows after a row that hits are never consulted. */
  lemma {:induction false} LaterRowsIrrelevant(lowerDesc: string, rows: seq<Row>, more: seq<Row>, lower: string -> string)
    requires exists j :: 0 <= j < |rows| && Hits(lowerDesc, rows[j], lower)
    ensures FirstMatch(lowerDesc, rows + more, lower) == FirstMatch(lowerDesc, rows, lower)
  {
    var j :| 0 <= j < |rows| && Hits(lowerDesc, rows[j], lower);
    RowsAfterHit(lowerDesc, rows, more, lower, j);
  }

  /** Induction for `LaterRowsIrrelevant`, on the index of a row that hits. */
  lemma {:induction false} RowsAfterHit(lowerDesc: string, rows: seq<Row>, more: seq<Row>, lower: string -> string, j: nat)
    requires j < |rows| && Hits(lowerDesc, rows[j], lower)
    ensures FirstMatch(lowerDesc, rows + more, lower) == FirstMatch(lowerDesc, rows, lower)
  {
    assert (rows + more)[0] == rows[0];
    if !Hits(lowerDesc, rows[0], lower) {
      assert rows[1..][j - 1] == rows[j];
      RowsAfterHit(lowerDesc, rows[1..], more, lower, j - 1);
      assert (rows + more)[1..] == rows[1..] + more;
    }
  }

  /** An empty keyword (an empty or blank piece between commas, e.g. a
      trailing comma) occurs in every description, so its row catches every
      description that reaches it. */
  lemma EmptyKeywordHitsAll(lowerDesc: string, row: Row, lower: string -> string, k: nat)
    requires !Skipped(row)
    requires k < |Keywords(row.keywords.value, lower)| && Keywords(row.keywords.value, lower)[k] == ""
    ensures Hits(lowerDesc, row, lower)
  {
    ContainsEmpty(lowerDesc);
  }

  /** A piece that trims to nothing gives an empty keyword whenever lowercasing
      keeps the empty string empty. */
  lemma BlankPieceEmptyKeyword(field: string, lower: string -> string, k: nat)
    requires k < |Split(field, ",")| && AllIn(Split(field, ",")[k], JsWhitespace)
    requires lower("") == ""
    ensures k < |Keywords(field, lower)| && Keywords(field, lower)[k] == ""
  {
    StripEmpty(Split(field, ",")[k], JsWhitespace);
  }

  /** The lowercased empty description is hit exactly by rows with an empty
      keyword. */
  lemma EmptyDescriptionHits(row: Row, lower: string -> string)
    requires !Skipped(row)
    ensures Hits("", row, lower) <==>
      (exists k :: 0 <= k < |Keywords(row.keywords.value, lower)| && Keywords(row.keywords.value, lower)[k] == "")
  {
    var kws := Keywords(row.keywords.value, lower);
    forall k | 0 <= k < |kws|
      ensures Contains("", kws[k]) <==> kws[k] == ""
    {
      ContainedInEmpty(kws[k]);
    }
  }

  /** `getCategoryFromCSV("")`, the parameter's default: when lowercasing
      keeps the empty string empty and no row that is read has an empty
      keyword, the answer is `Uncategorized`. */
  lemma EmptyDescriptionDefault(rows: seq<Row>, lower: string -> string)
    requires lower("") == ""
    requires forall i, k :: 0 <= i < |rows| && !Skipped(rows[i]) && 0 <= k < |Keywords(rows[i].keywords.value, lower)|
               ==> Keywords(rows[i].keywords.value, lower)[k] != ""
    ensures CategoryOf("", rows, lower) == Some(Uncategorized)
  {
    forall i | 0 <= i < |rows|
      ensures !Hits("", rows[i], lower)
    {
      if !Skipped(rows[i]) {
        EmptyDescriptionHits(rows[i], lower);
      }
    }
    NoHitDefault("", rows, lower);
  }

  /** The loops of `getCategoryFromCSV`: rows in order, keywords of each row
      in order, and the category of the first keyword found. */
  method GetCategory(description: string, rows: seq<Row>, lower: string -> string)
    returns (category: Option<string>)
    ensures category == CategoryOf(description, rows, lower)
  {
    var lowerDesc := lower(description);
    var n := 0;
    while n < |rows|
      invariant n <= |rows|
      invariant FirstMatch(lowerDesc, rows[n..], lower) == FirstMatch(lowerDesc, rows, lower)
    {
      var row := rows[n];
      assert rows[n..][1..] == rows[n + 1..];
      if row.keywords.Some? && row.keywords.value != "" {
        var keywords := Keywords(row.keywords.value, lower);
        var m := 0;
        while m < |keywords|
          invariant m <= |keywords|
          invariant forall j :: 0 <= j < m ==> !Contains(lowerDesc, keywords[j])
        {
          if Contains(lowerDesc, keywords[m]) {
            return row.category;
          }
          m := m + 1;
        }
      }
      n := n + 1;
    }
    return Some(Uncategorized);
  }
}

=== FILE: statement.dfy ===
/** The scan over the whole line buffer of a statement (backend/main.py,
    the `while` loop of `pdf_to_json`): a cursor that stops at marker lines,
    emits the block there and skips it, or moves on by one line.

    What the loop body would do at each index depends on that index alone,
    so the scan is stated in two layers: `Outcomes` is what the body reads
    at every index (None for a line that is not a marker), and `Walk` moves
    the cursor over those outcomes. */
module Statement {
  import opened Wrappers
  import opened Blocks

  /** What the loop body does at index `i`: nothing for a line that is not a
      marker, else the block read there. */
  function Outcome(lines: seq<string>, i: nat, userId: string, lib: Library): Option<BlockResult>
    requires i < |lines|
  {
    if IsMarker(lines[i]) then Some(ExtractBlock(lines, i, userId, lib)) else None
  }

  /** The outcome at every index of the buffer. */
  function Outcomes(lines: seq<string>, userId: string, lib: Library): (r: seq<Option<BlockResult>>)
    ensures |r| == |lines|
  {
    seq(|lines|, k requires 0 <= k < |lines| => Outcome(lines, k, userId, lib))
  }

  /** The `k`-th outcome is what the loop body does at line `k`. */
  lemma OutcomesAt(lines: seq<string>, userId: string, lib: Library, k: nat)
    requires k < |lines|
    ensures Outcomes(lines, userId, lib)[k] == Outcome(lines, k, userId, lib)
  {
  }

  /** A record emitted at an outcome. */
  predicate Emits(o: Option<BlockResult>) {
    o.Some? && o.value.Emitted?
  }

  /** The cursor moving over the outcomes from index `i`: a record moves it
      past the whole block (four lines), anything else by one line. */
  function Walk(outs: seq<Option<BlockResult>>, i: nat): seq<Record>
    decreases |outs| - i
  {
    if i >= |outs| then []
    else if Emits(outs[i]) then [outs[i].value.record] + Walk(outs, i + 4)
    else Walk(outs, i + 1)
  }

  /** The index each record of `Walk` was emitted at. */
  function WalkOrigins(outs: seq<Option<BlockResult>>, i: nat): seq<nat>
    decreases |outs| - i
  {
    if i >= |outs| then []
    else if Emits(outs[i]) then [i] + WalkOrigins(outs, i + 4)
    else WalkOrigins(outs, i + 1)
  }

  /** The records the loop appends from cursor `i` on, in order. */
  function Scan(lines: seq<string>, i: nat, userId: string, lib: Library): seq<Record> {
    Walk(Outcomes(lines, userId, lib), i)
  }

  /** The marker index each record of `Scan` was read at. */
  function Origins(lines: seq<string>, i: nat, userId: string, lib: Library): seq<nat> {
    WalkOrigins(Outcomes(lines, userId, lib), i)
  }

  /** `origins` index `records` one for one: every origin at or after
      `from` is an index whose outcome is the matching record, and each
      origin lies at least four lines after the previous one. */
  predicate Traced(outs: seq<Option<BlockResult>>, from: nat, origins: seq<nat>, records: seq<Record>) {
    && |origins| == |records|
    && (forall k :: 0 <= k < |origins| ==>
          from <= origins[k] < |outs| && outs[origins[k]] == Some(Emitted(records[k])))
    && (forall k :: 0 <= k < |origins| - 1 ==> origins[k] + 4 <= origins[k + 1])
  }

  /** Every record of a walk comes from its own outcome, in order, and two
      records come from indices at least four apart. */
  lemma {:induction false} WalkTraced(outs: seq<Option<BlockResult>>, i: nat)
    ensures Traced(outs, i, WalkOrigins(outs, i), Walk(outs, i))
    decreases |outs| - i
  {
    if i < |outs| {
      if Emits(outs[i]) {
        WalkTraced(outs, i + 4);
        TracedCons(outs, i, WalkOrigins(outs, i + 4), Walk(outs, i + 4));
      } else {
        WalkTraced(outs, i + 1);
      }
    }
  }

  /** Prepending a record emitted at `i` to a trace that starts at `i + 4`. */
  lemma TracedCons(outs: seq<Option<BlockResult>>, i: nat, origins: seq<nat>, records: seq<Record>)
    requires i < |outs| && Emits(outs[i])
    requires Traced(outs, i + 4, origins, records)
    ensures Traced(outs, i, [i] + origins, [outs[i].value.record] + records)
  {
    var o, rs := [i] + origins, [outs[i].value.record] + records;
    forall k | 0 <= k < |o|
      ensures i <= o[k] < |outs| && outs[o[k]] == Some(Emitted(rs[k]))
    {
      if k > 0 {
        assert o[k] == origins[k - 1] && rs[k] == records[k - 1];
      }
    }
    forall k | 0 <= k < |o| - 1
      ensures o[k] + 4 <= o[k + 1]
    {
      assert o[k + 1] == origins[k];
      if k > 0 {
        assert o[k] == origins[k - 1];
      }
    }
  }

  /** The `k`-th record comes from a marker line whose block yields it. */
  lemma RecordOrigin(lines: seq<string>, i: nat, userId: string, lib: Library, k: nat)
    requires k < |Scan(lines, i, userId, lib)|
    ensures |Origins(lines, i, userId, lib)| == |Scan(lines, i, userId, lib)|
    ensures i <= Origins(lines, i, userId, lib)[k] < |lines|
    ensures IsMarker(lines[Origins(lines, i, userId, lib)[k]])
    ensures ExtractBlock(lines, Origins(lines, i, userId, lib)[k], userId, lib)
      == Emitted(Scan(lines, i, userId, lib)[k])
  {
    var outs := Outcomes(lines, userId, lib);
    WalkTraced(outs, i);
    OutcomesAt(lines, userId, lib, WalkOrigins(outs, i)[k]);
  }

  /** Records come in line order from distinct markers: the markers of two
      consecutive records are at least four lines apart. */
  lemma OriginsApart(lines: seq<string>, i: nat, userId: string, lib: Library, k: nat)
    requires k + 1 < |Scan(lines, i, userId, lib)|
    ensures |Origins(lines, i, userId, lib)| == |Scan(lines, i, userId, lib)|
    ensures Origins(lines, i, userId, lib)[k] + 4 <= Origins(lines, i, userId, lib)[k + 1]
  {
    WalkTraced(Outcomes(lines, userId, lib), i);
  }

  /** Every record carries the caller's user id and one of the three types,
      and has both timestamps or neither. */
  lemma RecordFields(lines: seq<string>, i: nat, userId: string, lib: Library, k: nat)
    requires k < |Scan(lines, i, userId, lib)|
    ensures Scan(lines, i, userId, lib)[k].userId == userId
    ensures Scan(lines, i, userId, lib)[k].transactionType in {"DEBIT", "CREDIT", ""}
    ensures Scan(lines, i, userId, lib)[k].createdAt == "" <==> Scan(lines, i, userId, lib)[k].date == ""
  {
    RecordOrigin(lines, i, userId, lib, k);
    BlockYields(lines, Origins(lines, i, userId, lib)[k], userId, lib);
  }

  /** Outcomes without a record give a walk without records. */
  lemma {:induction false} WalkSilent(outs: seq<Option<BlockResult>>, i: nat)
    requires forall k :: i <= k < |outs| ==> !Emits(outs[k])
    ensures Walk(outs, i) == []
    decreases |outs| - i
  {
    if i < |outs| {
      WalkSilent(outs, i + 1);
    }
  }

  /** A line buffer without a marker line from `i` on yields no record. */
  lemma NoMarkerNoRecords(lines: seq<string>, i: nat, userId: string, lib: Library)
    requires forall k :: i <= k < |lines| ==> !IsMarker(lines[k])
    ensures Scan(lines, i, userId, lib) == []
  {
    var outs := Outcomes(lines, userId, lib);
    forall k | i <= k < |outs|
      ensures !Emits(outs[k])
    {
      OutcomesAt(lines, userId, lib, k);
    }
    WalkSilent(outs, i);
  }

  /** Indices without a record are passed over one at a time: the walk
      from `i` is the walk from `j` when nothing in between emits. */
  lemma {:induction false} WalkSkips(outs: seq<Option<BlockResult>>, i: nat, j: nat)
    requires i <= j
    requires forall k :: i <= k < j && k < |outs| ==> !Emits(outs[k])
    ensures Walk(outs, i) == Walk(outs, j)
    decreases j - i
  {
    if i < j && i < |outs| {
      WalkSkips(outs, i + 1, j);
    }
  }

  /** Lines that are not markers are passed over: the scan from `i` is the
      scan from the next marker on. */
  lemma SkipNonMarkers(lines: seq<string>, i: nat, j: nat, userId: string, lib: Library)
    requires i <= j
    requires forall k :: i <= k < j && k < |lines| ==> !IsMarker(lines[k])
    ensures Scan(lines, i, userId, lib) == Scan(lines, j, userId, lib)
  {
    var outs := Outcomes(lines, userId, lib);
    forall k | i <= k < j && k < |outs|
      ensures !Emits(outs[k])
    {
      OutcomesAt(lines, userId, lib, k);
    }
    WalkSkips(outs, i, j);
  }

  /** The number of outcomes from `i` on that read a block (marker lines). */
  function Present(outs: seq<Option<BlockResult>>, i: nat): nat
    decreases |outs| - i
  {
    if i >= |outs| then 0
    else (if outs[i].Some? then 1 else 0) + Present(outs, i + 1)
  }

  /** Counting from a later index counts no more. */
  lemma {:induction false} PresentMonotone(outs: seq<Option<BlockResult>>, i: nat, j: nat)
    requires i <= j
    ensures Present(outs, j) <= Present(outs, i)
    decreases j - i
  {
    if i < j {
      PresentMonotone(outs, i + 1, j);
    }
  }

  /** A walk emits at most one record per outcome that reads a block. */
  lemma {:induction false} WalkCount(outs: seq<Option<BlockResult>>, i: nat)
    ensures |Walk(outs, i)| <= Present(outs, i)
    decreases |outs| - i
  {
    if i < |outs| {
      if Emits(outs[i]) {
        WalkCount(outs, i + 4);
        PresentMonotone(outs, i + 1, i + 4);
      } else {
        WalkCount(outs, i + 1);
      }
    }
  }

  /** The number of marker lines at index `i` or later. */
  function MarkerCount(lines: seq<string>, i: nat): nat
    decreases |lines| - i
  {
    if i >= |lines| then 0
    else (if IsMarker(lines[i]) then 1 else 0) + MarkerCount(lines, i + 1)
  }

  /** The outcomes that read a block are exactly the marker lines. */
  lemma {:induction false} PresentMarkers(lines: seq<string>, i: nat, userId: string, lib: Library)
    ensures Present(Outcomes(lines, userId, lib), i) == MarkerCount(lines, i)
    decreases |lines| - i
  {
    if i < |lines| {
      PresentMarkers(lines, i + 1, userId, lib);
      OutcomesAt(lines, userId, lib, i);
    }
  }

  /** There are never more records than marker lines. */
  lemma RecordCount(lines: seq<string>, i: nat, userId: string, lib: Library)
    ensures |Scan(lines, i, userId, lib)| <= MarkerCount(lines, i)
  {
    WalkCount(Outcomes(lines, userId, lib), i);
    PresentMarkers(lines, i, userId, lib);
  }

  /** The records a step appends: none or one. */
  function Appended(found: Option<Record>): seq<Record> {
    match found
    case Some(r) => [r]
    case None => []
  }

  /** One pass of the loop body at cursor `i`: a marker whose block yields a
      record moves the cursor four lines on and hands the record back; a
      marker whose block faults, and any other line, moves it by one. */
  method Advance(lines: seq<string>, i: nat, userId: string, lib: Library)
    returns (next: nat, found: Option<Record>)
    requires i < |lines|
    ensures next == i + 4 <==> found.Some?
    ensures next == i + 1 <==> found.None?
    ensures found.Some? <==> IsMarker(lines[i]) && ExtractBlock(lines, i, userId, lib).Emitted?
    ensures Scan(lines, i, userId, lib) == Appended(found) + Scan(lines, next, userId, lib)
  {
    OutcomesAt(lines, userId, lib, i);
    var line := lines[i];
    if IsMarker(line) {
      match ExtractBlock(lines, i, userId, lib)
      case Emitted(r) =>
        next, found := i + 4, Some(r);
      case Fault(_) =>
        next, found := i + 1, None;
    } else {
      next, found := i + 1, None;
    }
  }

  lemma Associative(a: seq<Record>, b: seq<Record>, c: seq<Record>)
    ensures a + b + c == a + (b + c)
  {
  }

  /** `pdf_to_json` after the page text has been split into lines: the
      records of every block that does not fault, in line order. */
  method ExtractTransactions(lines: seq<string>, userId: string, lib: Library)
    returns (transactions: seq<Record>)
    ensures transactions == Scan(lines, 0, userId, lib)
    ensures |transactions| <= MarkerCount(lines, 0)
  {
    transactions := [];
    var i := 0;
    while i < |lines|
      invariant transactions + Scan(lines, i, userId, lib) == Scan(lines, 0, userId, lib)
      decreases |lines| - i
    {
      var next, found := Advance(lines, i, userId, lib);
      Associative(transactions, Appended(found), Scan(lines, next, userId, lib));
      transactions := transactions + Appended(found);
      i := next;
    }
    RecordCount(lines, 0, userId, lib);
  }
}

=== FILE: text.dfy ===
/** The string primitives the extractor and the categoriser are built from,
    with the semantics of Python's `in`, `str.split(sep)`, `str.join`,
    `str.replace(pat, "")`, `str.strip()`, `str.split()` and of JavaScript's
    `String.prototype.includes`, `split(sep)` and `trim()`. */
module Text {

  /** Characters for which Python's `str.isspace()` holds; `str.strip()` and
      `str.split()` without arguments remove exactly these. */
  const PyWhitespace: set<char> := {
    '\t', '\n', '\U{0B}', '\U{0C}', '\r', '\U{1C}', '\U{1D}', '\U{1E}', '\U{1F}', ' ',
    '\U{85}', '\U{A0}', '\U{1680}',
    '\U{2000}', '\U{2001}', '\U{2002}', '\U{2003}', '\U{2004}', '\U{2005}',
    '\U{2006}', '\U{2007}', '\U{2008}', '\U{2009}', '\U{200A}',
    '\U{2028}', '\U{2029}', '\U{202F}', '\U{205F}', '\U{3000}'
  }

  /** Characters JavaScript's `String.prototype.trim()` removes: the
      ECMAScript WhiteSpace and LineTerminator code points. */
  const JsWhitespace: set<char> := {
    '\t', '\n', '\U{0B}', '\U{0C}', '\r', ' ', '\U{A0}', '\U{1680}',
    '\U{2000}', '\U{2001}', '\U{2002}', '\U{2003}', '\U{2004}', '\U{2005}',
    '\U{2006}', '\U{2007}', '\U{2008}', '\U{2009}', '\U{200A}',
    '\U{2028}', '\U{2029}', '\U{202F}', '\U{205F}', '\U{3000}', '\U{FEFF}'
  }

  /** Every character of `s` belongs to `ws`. */
  predicate AllIn(s: string, ws: set<char>) {
    forall k :: 0 <= k < |s| ==> s[k] in ws
  }

  /** No character of `s` belongs to `ws`. */
  predicate NoneIn(s: string, ws: set<char>) {
    forall k :: 0 <= k < |s| ==> s[k] !in ws
  }

  // ---------------------------------------------------------------------
  // Substring search
  // ---------------------------------------------------------------------

  /** `p` occurs in `s` starting at index `k`. */
  predicate OccursAt(s: string, p: string, k: int) {
    0 <= k && k + |p| <= |s| && s[k..k + |p|] == p
  }

  /** The first index at or after `from` where `p` occurs in `s`, or -1. */
  function FindFrom(s: string, p: string, from: nat): (r: int)
    ensures r == -1 || (from <= r && OccursAt(s, p, r))
    decreases |s| - from
  {
    if from + |p| > |s| then -1
    else if s[from..from + |p|] == p then from
    else FindFrom(s, p, from + 1)
  }

  /** The search finds the FIRST occurrence at or after `from`, and reports
      -1 only when there is none. */
  lemma {:induction false} FindFromFirst(s: string, p: string, from: nat)
    ensures FindFrom(s, p, from) == -1 ==> forall k :: from <= k ==> !OccursAt(s, p, k)
    ensures FindFrom(s, p, from) >= 0 ==> forall k :: from <= k < FindFrom(s, p, from) ==> !OccursAt(s, p, k)
    decreases |s| - from
  {
    if from + |p| <= |s| && s[from..from + |p|] != p {
      FindFromFirst(s, p, from + 1);
    }
  }

  /** The index of the first occurrence of `p` in `s`, or -1 (`str.find`). */
  function Find(s: string, p: string): int {
    FindFrom(s, p, 0)
  }

  /** Python's `p in s` and JavaScript's `s.includes(p)`. */
  predicate Contains(s: string, p: string) {
    Find(s, p) >= 0
  }

  /** `Contains` is substring containment: some occurrence exists. */
  lemma ContainsIff(s: string, p: string)
    ensures Contains(s, p) <==> exists k :: OccursAt(s, p, k)
  {
    FindFromFirst(s, p, 0);
    if exists k :: OccursAt(s, p, k) {
      var k :| OccursAt(s, p, k);
      assert Find(s, p) != -1;
    }
  }

  /** Every string contains the empty string. */
  lemma ContainsEmpty(s: string)
    ensures Contains(s, "")
  {
    assert OccursAt(s, "", 0);
  }

  /** The empty string contains only the empty string. */
  lemma ContainedInEmpty(p: string)
    ensures Contains("", p) <==> p == ""
  {
    if p == "" {
      ContainsEmpty("");
    }
  }

  /** A one-character pattern occurs exactly when the character does. */
  lemma ContainsChar(s: string, c: char)
    ensures Contains(s, [c]) <==> c in s
  {
    if c in s {
      var k :| 0 <= k < |s| && s[k] == c;
      assert OccursAt(s, [c], k);
      ContainsIff(s, [c]);
    }
    if Contains(s, [c]) {
      var k := Find(s, [c]);
      assert s[k..k + 1] == [c];
      assert s[k] == c;
    }
  }

  /** An occurrence inside a slice of `s` is an occurrence in `s`. */
  lemma OccursInSlice(s: string, lo: int, hi: int, p: string, k: int)
    requires 0 <= lo <= hi <= |s|
    requires OccursAt(s[lo..hi], p, k)
    ensures OccursAt(s, p, lo + k)
  {
    forall j | 0 <= j < |p|
      ensures s[lo + k + j] == p[j]
    {
      assert s[lo..hi][k..k + |p|][j] == p[j];
    }
    assert s[lo + k..lo + k + |p|] == p;
  }

  /** A slice of a string without `p` does not contain `p` either. */
  lemma NotContainsSlice(s: string, lo: int, hi: int, p: string)
    requires 0 <= lo <= hi <= |s|
    requires !Contains(s, p)
    ensures !Contains(s[lo..hi], p)
  {
    if Contains(s[lo..hi], p) {
      OccursInSlice(s, lo, hi, p, Find(s[lo..hi], p));
      ContainsIff(s, p);
    }
  }

  // ---------------------------------------------------------------------
  // split(sep) / join / replace(pat, "")
  // ---------------------------------------------------------------------

  /** `sep.join(parts)`. */
  function Join(parts: seq<string>, sep: string): string {
    if |parts| == 0 then ""
    else if |parts| == 1 then parts[0]
    else parts[0] + sep + Join(parts[1..], sep)
  }

  /** Python's `s.split(sep)` and JavaScript's `s.split(sep)` for a non-empty
      separator: the pieces between the non-overlapping occurrences of `sep`,
      found left to right, empty pieces kept. Python raises on an empty
      separator; every call in the source passes a non-empty literal. */
  function Split(s: string, sep: string): (r: seq<string>)
    requires sep != ""
    ensures |r| >= 1
    decreases |s|
  {
    var k := Find(s, sep);
    if k < 0 then [s]
    else [s[..k]] + Split(s[k + |sep|..], sep)
  }

  /** No piece of `s.split(sep)` contains `sep`. */
  lemma {:induction false} SplitPieces(s: string, sep: string)
    requires sep != ""
    ensures forall k :: 0 <= k < |Split(s, sep)| ==> !Contains(Split(s, sep)[k], sep)
    decreases |s|
  {
    var k := Find(s, sep);
    if k >= 0 {
      SplitUnfold(s, sep);
      SplitPieces(s[k + |sep|..], sep);
      NotContainsBeforeFirst(s, sep);
    }
  }

  /** Splitting and joining back with the same separator is the identity:
      `sep.join(s.split(sep)) == s`. */
  lemma {:induction false} SplitJoin(s: string, sep: string)
    requires sep != ""
    ensures Join(Split(s, sep), sep) == s
    decreases |s|
  {
    var k := Find(s, sep);
    if k >= 0 {
      var rest := s[k + |sep|..];
      SplitUnfold(s, sep);
      JoinCons(s[..k], Split(rest, sep), sep);
      SplitJoin(rest, sep);
      AroundOccurrence(s, sep, k);
    }
  }

  /** `sep.join([a] + parts)` for a non-empty `parts`. */
  lemma JoinCons(a: string, parts: seq<string>, sep: string)
    requires |parts| >= 1
    ensures Join([a] + parts, sep) == a + sep + Join(parts, sep)
  {
    assert ([a] + parts)[1..] == parts;
  }

  /** A string is the text before an occurrence, the occurrence, and the
      text after it. */
  lemma AroundOccurrence(s: string, p: string, k: int)
    requires OccursAt(s, p, k)
    ensures s == s[..k] + p + s[k + |p|..]
  {
  }

  /** The text before the first occurrence of `p` does not contain `p`. */
  lemma NotContainsBeforeFirst(s: string, p: string)
    requires p != "" && Contains(s, p)
    ensures !Contains(s[..Find(s, p)], p)
  {
    var k := Find(s, p);
    FindFromFirst(s, p, 0);
    assert s[..k] == s[0..k];
    if Contains(s[..k], p) {
      var j := Find(s[..k], p);
      OccursInSlice(s, 0, k, p, j);
    }
  }

  /** `split(sep)[0]` is the text before the first occurrence of `sep`, or
      the whole string when there is none. */
  lemma SplitFirst(s: string, sep: string)
    requires sep != ""
    ensures Contains(s, sep) ==> Split(s, sep)[0] == s[..Find(s, sep)]
    ensures !Contains(s, sep) ==> Split(s, sep) == [s]
  {
  }

  /** `split(sep)[0]` as a property: a prefix of `s` free of `sep`, ended
      by an occurrence of `sep` or by the end of `s`. */
  lemma SplitHead(s: string, sep: string)
    requires sep != ""
    ensures var h := Split(s, sep)[0];
      |h| <= |s| && s[..|h|] == h && !Contains(h, sep)
      && (|h| == |s| || OccursAt(s, sep, |h|))
  {
    SplitFirst(s, sep);
    if Contains(s, sep) {
      NotContainsBeforeFirst(s, sep);
    }
  }

  /** `d` sits at index `start` of `s`, holds neither separator, and is
      ended by one of them or by the end of `s`. */
  predicate RunBetween(s: string, start: nat, d: string, sep1: string, sep2: string) {
    && start + |d| <= |s|
    && s[start..start + |d|] == d
    && !Contains(d, sep1) && !Contains(d, sep2)
    && (start + |d| == |s| || OccursAt(s, sep1, start + |d|) || OccursAt(s, sep2, start + |d|))
  }

  /** `s.split(sep1)[0].split(sep2)[0]`: a prefix of `s` free of both
      separators, ended by an occurrence of one of them or by the end of
      `s`. */
  lemma HeadOfHead(s: string, sep1: string, sep2: string)
    requires sep1 != "" && sep2 != ""
    ensures RunBetween(s, 0, Split(Split(s, sep1)[0], sep2)[0], sep1, sep2)
  {
    var h := Split(s, sep1)[0];
    SplitHead(s, sep1);
    var d := Split(h, sep2)[0];
    SplitHead(h, sep2);
    NotContainsSlice(h, 0, |d|, sep1);
    assert h[0..|d|] == d;
    if |d| < |h| {
      assert h == s[0..|h|];
      OccursInSlice(s, 0, |h|, sep2, |d|);
    }
  }

  /** A run in a suffix of `s` is a run in `s`, shifted. */
  lemma RunShift(s: string, start: nat, d: string, sep1: string, sep2: string)
    requires start <= |s|
    requires RunBetween(s[start..], 0, d, sep1, sep2)
    ensures RunBetween(s, start, d, sep1, sep2)
  {
    assert s[start..start + |d|] == s[start..][0..|d|];
    if start + |d| < |s| {
      if OccursAt(s[start..], sep1, |d|) {
        OccursInSuffix(s, start, sep1, |d|);
      } else {
        OccursInSuffix(s, start, sep2, |d|);
      }
    }
  }

  /** An occurrence in a suffix of `s` is an occurrence in `s`. */
  lemma OccursInSuffix(s: string, start: int, p: string, k: int)
    requires 0 <= start <= |s|
    requires OccursAt(s[start..], p, k)
    ensures OccursAt(s, p, start + k)
  {
    assert s[start..] == s[start..|s|];
    OccursInSlice(s, start, |s|, p, k);
  }

  /** `split(sep)[1]`, when `sep` occurs, is the text between its first
      occurrence and the next one (or the end). */
  lemma SplitSecond(s: string, sep: string)
    requires sep != "" && Contains(s, sep)
    ensures |Split(s, sep)| >= 2
    ensures Split(s, sep)[1] == Split(s[Find(s, sep) + |sep|..], sep)[0]
  {
  }

  /** The last piece of a split.  */
  function Last(parts: seq<string>): string
    requires |parts| >= 1
  {
    parts[|parts| - 1]
  }

  /** `t` is a suffix of `s` with an occurrence of `sep` right before it. */
  predicate SepLedSuffix(s: string, sep: string, t: string) {
    |t| + |sep| <= |s| && s[|s| - |t|..] == t && OccursAt(s, sep, |s| - |t| - |sep|)
  }

  /** `split(sep)[-1]`, when `sep` occurs, is the text after the LAST
      occurrence: a suffix of `s`, preceded by `sep`, free of `sep`. */
  lemma {:induction false} SplitLast(s: string, sep: string)
    requires sep != "" && Contains(s, sep)
    ensures SepLedSuffix(s, sep, Last(Split(s, sep)))
    ensures !Contains(Last(Split(s, sep)), sep)
    decreases |s|
  {
    var k := Find(s, sep);
    var rest := s[k + |sep|..];
    SplitPieces(s, sep);
    SplitLastUnfold(s, sep);
    if Contains(rest, sep) {
      SplitLast(rest, sep);
      SuffixShift(s, k + |sep|, rest, sep, Last(Split(rest, sep)));
    } else {
      SplitAbsent(rest, sep);
      SuffixAfter(s, k, rest, sep);
    }
  }

  /** The text after an occurrence of `sep` is a suffix led by `sep`. */
  lemma SuffixAfter(s: string, k: nat, rest: string, sep: string)
    requires OccursAt(s, sep, k) && rest == s[k + |sep|..]
    ensures SepLedSuffix(s, sep, rest)
  {
    assert |s| - |rest| - |sep| == k;
  }

  /** A separator-led suffix of `s[off..]` is a separator-led suffix of `s`. */
  lemma SuffixShift(s: string, off: nat, rest: string, sep: string, t: string)
    requires off <= |s| && rest == s[off..]
    requires SepLedSuffix(rest, sep, t)
    ensures SepLedSuffix(s, sep, t)
  {
    assert s[off..] == s[off..|s|];
    OccursInSlice(s, off, |s|, sep, |rest| - |t| - |sep|);
  }

  /** Without an occurrence of `sep`, the split is the whole string. */
  lemma SplitAbsent(s: string, sep: string)
    requires sep != "" && !Contains(s, sep)
    ensures Last(Split(s, sep)) == s
  {
  }

  /** The last piece of a split past the first occurrence of `sep`. */
  lemma SplitLastUnfold(s: string, sep: string)
    requires sep != "" && Contains(s, sep)
    ensures OccursAt(s, sep, Find(s, sep))
    ensures Last(Split(s, sep)) == Last(Split(s[Find(s, sep) + |sep|..], sep))
  {
    var k := Find(s, sep);
    SplitUnfold(s, sep);
    LastCons(s[..k], Split(s[k + |sep|..], sep));
  }

  lemma LastCons(a: string, parts: seq<string>)
    requires |parts| >= 1
    ensures Last([a] + parts) == Last(parts)
  {
  }

  /** One step of `Split` when the separator occurs. */
  lemma SplitUnfold(s: string, sep: string)
    requires sep != "" && Contains(s, sep)
    ensures Split(s, sep) == [s[..Find(s, sep)]] + Split(s[Find(s, sep) + |sep|..], sep)
  {
    var k := Find(s, sep);
    var rest := Split(s[k + |sep|..], sep);
    assert Split(s, sep) == [s[..k]] + rest;
  }

  /** `sep.join(a + b)` puts one separator between the two joins. */
  lemma {:induction false} JoinAppend(a: seq<string>, b: seq<string>, sep: string)
    requires |a| >= 1 && |b| >= 1
    ensures Join(a + b, sep) == Join(a, sep) + sep + Join(b, sep)
    decreases |a|
  {
    if |a| == 1 {
      assert (a + b)[1..] == b;
    } else {
      assert (a + b)[1..] == a[1..] + b;
      JoinAppend(a[1..], b, sep);
    }
  }

  /** Joining separator-free pieces puts exactly one separator between each. */
  lemma {:induction false} JoinCount(parts: seq<string>, c: char)
    requires |parts| >= 1
    requires forall k :: 0 <= k < |parts| ==> c !in parts[k]
    ensures multiset(Join(parts, [c]))[c] == |parts| - 1
    ensures |parts| >= 2 ==> c in Join(parts, [c])
  {
    if |parts| == 1 {
      assert multiset(parts[0])[c] == 0;
    } else {
      JoinCount(parts[1..], c);
      var rest := Join(parts[1..], [c]);
      assert Join(parts, [c]) == parts[0] + [c] + rest;
      assert multiset(parts[0] + [c] + rest) == multiset(parts[0]) + multiset{c} + multiset(rest);
      assert multiset(parts[0])[c] == 0;
      assert (parts[0] + [c] + rest)[|parts[0]|] == c;
    }
  }

  /** Python's `s.replace(pat, "")`: every non-overlapping occurrence of `pat`,
      found left to right, deleted. Replacing the empty string by the empty
      string leaves `s` unchanged. */
  function RemoveAll(s: string, pat: string): (r: string)
    ensures !Contains(s, pat) ==> r == s
    ensures |r| <= |s|
  {
    if pat == "" then s
    else
      var parts := Split(s, pat);
      JoinShrinks(parts, pat);
      SplitJoin(s, pat);
      Join(parts, "")
  }

  /** `replace(pat, "")` deletes the first occurrence of `pat` and carries
      on after it: with `FindFromFirst` and the case without `pat`, this
      pins down left-to-right, non-overlapping deletion of every copy. */
  lemma RemoveAllStep(s: string, pat: string)
    requires pat != "" && Contains(s, pat)
    ensures Find(s, pat) + |pat| <= |s|
    ensures RemoveAll(s, pat) == s[..Find(s, pat)] + RemoveAll(s[Find(s, pat) + |pat|..], pat)
  {
    var k := Find(s, pat);
    var rest := Split(s[k + |pat|..], pat);
    SplitUnfold(s, pat);
    JoinCons(s[..k], rest, "");
  }

  /** Gluing pieces together without their separator never makes a longer string. */
  lemma {:induction false} JoinShrinks(parts: seq<string>, sep: string)
    ensures |Join(parts, "")| <= |Join(parts, sep)|
    ensures |parts| == 1 ==> Join(parts, "") == Join(parts, sep)
  {
    if |parts| > 1 {
      JoinShrinks(parts[1..], sep);
    }
  }

  /** Deleting `pat` from a string that starts with `pat` deletes that
      leading copy and then works on the rest. */
  lemma RemoveAllLeading(s: string, pat: string)
    requires pat != "" && OccursAt(s, pat, 0)
    ensures RemoveAll(s, pat) == RemoveAll(s[|pat|..], pat)
  {
    assert Find(s, pat) == 0;
    var rest := Split(s[|pat|..], pat);
    assert Split(s, pat) == [""] + rest;
  }

  /** After `replace(",", "")` (any one character) no such character is left. */
  lemma RemoveAllChar(s: string, c: char)
    ensures c !in RemoveAll(s, [c])
  {
    var parts := Split(s, [c]);
    SplitPieces(s, [c]);
    forall k | 0 <= k < |parts|
      ensures c !in parts[k]
    {
      ContainsChar(parts[k], c);
    }
    JoinWithoutChar(parts, c);
  }

  lemma {:induction false} JoinWithoutChar(parts: seq<string>, c: char)
    requires forall k :: 0 <= k < |parts| ==> c !in parts[k]
    ensures c !in Join(parts, "")
  {
    if |parts| > 1 {
      JoinWithoutChar(parts[1..], c);
    }
  }

  // ---------------------------------------------------------------------
  // strip() / trim()
  // ---------------------------------------------------------------------

  /** The number of characters of `ws` at the start of `s`. */
  function LeadingSpace(s: string, ws: set<char>): (n: nat)
    ensures n <= |s|
  {
    if s != "" && s[0] in ws then 1 + LeadingSpace(s[1..], ws) else 0
  }

  /** `LeadingSpace` measures the longest run of `ws` at the start. */
  lemma {:induction false} LeadingSpaceRun(s: string, ws: set<char>)
    ensures AllIn(s[..LeadingSpace(s, ws)], ws)
    ensures LeadingSpace(s, ws) < |s| ==> s[LeadingSpace(s, ws)] !in ws
  {
    if s != "" && s[0] in ws {
      LeadingSpaceRun(s[1..], ws);
      assert s[..LeadingSpace(s, ws)] == [s[0]] + s[1..][..LeadingSpace(s[1..], ws)];
    }
  }

  /** The number of characters of `ws` at the end of `s`. */
  function TrailingSpace(s: string, ws: set<char>): (n: nat)
    ensures n <= |s|
  {
    if s != "" && s[|s| - 1] in ws then 1 + TrailingSpace(s[..|s| - 1], ws) else 0
  }

  /** `TrailingSpace` measures the longest run of `ws` at the end. */
  lemma {:induction false} TrailingSpaceRun(s: string, ws: set<char>)
    ensures AllIn(s[|s| - TrailingSpace(s, ws)..], ws)
    ensures TrailingSpace(s, ws) < |s| ==> s[|s| - TrailingSpace(s, ws) - 1] !in ws
  {
    if s != "" && s[|s| - 1] in ws {
      var init := s[..|s| - 1];
      TrailingSpaceRun(init, ws);
      assert s[|s| - TrailingSpace(s, ws)..] == init[|init| - TrailingSpace(init, ws)..] + [s[|s| - 1]];
    }
  }

  /** Python's `s.strip()` (with `PyWhitespace`) and JavaScript's `s.trim()`
      (with `JsWhitespace`): `s` without its leading and trailing run of
      characters from `ws`. */
  function Strip(s: string, ws: set<char>): (r: string)
    ensures LeadingSpace(s, ws) + |r| <= |s|
    ensures r == s[LeadingSpace(s, ws)..LeadingSpace(s, ws) + |r|]
    ensures r != "" ==> r[0] !in ws && r[|r| - 1] !in ws
  {
    var a := LeadingSpace(s, ws);
    var t := s[a..];
    var b := TrailingSpace(t, ws);
    LeadingSpaceRun(s, ws);
    TrailingSpaceRun(t, ws);
    t[..|t| - b]
  }

  /** What `Strip` removes is whitespace on both sides. */
  lemma StripBounds(s: string, ws: set<char>)
    ensures AllIn(s[..LeadingSpace(s, ws)], ws)
    ensures AllIn(s[LeadingSpace(s, ws) + |Strip(s, ws)|..], ws)
  {
    var a := LeadingSpace(s, ws);
    var t := s[a..];
    LeadingSpaceRun(s, ws);
    TrailingSpaceRun(t, ws);
    assert s[a + |Strip(s, ws)|..] == t[|t| - TrailingSpace(t, ws)..];
  }

  /** A string is stripped to nothing exactly when it is all whitespace. */
  lemma StripEmpty(s: string, ws: set<char>)
    ensures Strip(s, ws) == "" <==> AllIn(s, ws)
  {
    var a := LeadingSpace(s, ws);
    StripBounds(s, ws);
    LeadingSpaceRun(s, ws);
    if Strip(s, ws) == "" {
      assert s == s[..a] + s[a..];
    }
  }

  /** Stripping twice is stripping once. */
  lemma StripIdempotent(s: string, ws: set<char>)
    ensures Strip(Strip(s, ws), ws) == Strip(s, ws)
  {
    var r := Strip(s, ws);
    assert LeadingSpace(r, ws) == 0;
    if r != "" {
      assert TrailingSpace(r, ws) == 0;
    }
  }

  /** A string without whitespace is its own strip. */
  lemma StripNoSpace(s: string, ws: set<char>)
    requires NoneIn(s, ws)
    ensures Strip(s, ws) == s
  {
    assert LeadingSpace(s, ws) == 0;
    assert s[0..] == s;
  }

  /** Stripping only removes characters. */
  lemma StripKeepsChar(s: string, ws: set<char>, c: char)
    requires c !in s
    ensures c !in Strip(s, ws)
  {
  }

  /** A stripped piece of a string free of `p` is free of `p`. */
  lemma StripKeepsAbsence(s: string, ws: set<char>, p: string)
    requires !Contains(s, p)
    ensures !Contains(Strip(s, ws), p)
  {
    var a := LeadingSpace(s, ws);
    NotContainsSlice(s, a, a + |Strip(s, ws)|, p);
  }

  // ---------------------------------------------------------------------
  // split() without arguments
  // ---------------------------------------------------------------------

  /** The length of the run of characters outside `ws` at the start of `s`. */
  function WordLength(s: string, ws: set<char>): (n: nat)
    ensures n <= |s|
  {
    if s != "" && s[0] !in ws then 1 + WordLength(s[1..], ws) else 0
  }

  /** `WordLength` measures the longest run outside `ws` at the start. */
  lemma {:induction false} WordLengthRun(s: string, ws: set<char>)
    ensures NoneIn(s[..WordLength(s, ws)], ws)
    ensures WordLength(s, ws) < |s| ==> s[WordLength(s, ws)] in ws
    ensures s != "" && s[0] !in ws ==> WordLength(s, ws) >= 1
  {
    if s != "" && s[0] !in ws {
      WordLengthRun(s[1..], ws);
      assert s[..WordLength(s, ws)] == [s[0]] + s[1..][..WordLength(s[1..], ws)];
    }
  }

  /** Python's `s.split()`: the maximal runs of non-whitespace characters,
      in order; runs of whitespace separate them. */
  function Words(s: string, ws: set<char>): seq<string>
    decreases |s|
  {
    var a := LeadingSpace(s, ws);
    var t := s[a..];
    if t == "" then []
    else
      LeadingSpaceRun(s, ws);
      WordLengthRun(t, ws);
      var n := WordLength(t, ws);
      [t[..n]] + Words(t[n..], ws)
  }

  /** Every token of `split()` is non-empty and free of whitespace. */
  lemma {:induction false} WordsTokens(s: string, ws: set<char>)
    ensures forall k :: 0 <= k < |Words(s, ws)| ==> Words(s, ws)[k] != "" && NoneIn(Words(s, ws)[k], ws)
    decreases |s|
  {
    var a := LeadingSpace(s, ws);
    var t := s[a..];
    if t != "" {
      LeadingSpaceRun(s, ws);
      WordLengthRun(t, ws);
      var n := WordLength(t, ws);
      WordsTokens(t[n..], ws);
      WordsCons(t[..n], Words(t[n..], ws), ws);
    }
  }

  lemma WordsCons(w: string, rest: seq<string>, ws: set<char>)
    requires w != "" && NoneIn(w, ws)
    requires forall k :: 0 <= k < |rest| ==> rest[k] != "" && NoneIn(rest[k], ws)
    ensures forall k :: 0 <= k < |[w] + rest| ==> ([w] + rest)[k] != "" && NoneIn(([w] + rest)[k], ws)
  {
  }

  /** `split()` gives no token exactly when the string is all whitespace. */
  lemma WordsEmpty(s: string, ws: set<char>)
    ensures Words(s, ws) == [] <==> AllIn(s, ws)
  {
    var a := LeadingSpace(s, ws);
    LeadingSpaceRun(s, ws);
    if a == |s| {
      assert s == s[..a];
    }
  }

  /** `w` starts at index `a` of `s` after a whitespace prefix and is ended by
      whitespace or by the end of `s`. */
  predicate TokenAt(s: string, ws: set<char>, a: nat, w: string) {
    && a + |w| <= |s|
    && AllIn(s[..a], ws)
    && s[a..a + |w|] == w
    && (a + |w| == |s| || s[a + |w|] in ws)
  }

  /** `split()[0]` is the first token: after a whitespace prefix, ended by
      whitespace or by the end of the string. */
  lemma FirstWord(s: string, ws: set<char>)
    requires Words(s, ws) != []
    ensures TokenAt(s, ws, LeadingSpace(s, ws), Words(s, ws)[0])
  {
    var a := LeadingSpace(s, ws);
    var n := WordLength(s[a..], ws);
    WordsHead(s, ws);
    LeadingSpaceRun(s, ws);
    WordLengthRun(s[a..], ws);
    SliceOfSuffix(s, a, n);
  }

  /** One step of `Words` on a string with a token. */
  lemma WordsHead(s: string, ws: set<char>)
    requires Words(s, ws) != []
    ensures Words(s, ws)[0] == s[LeadingSpace(s, ws)..][..WordLength(s[LeadingSpace(s, ws)..], ws)]
  {
  }

  /** `w` ends at index `e` of `s`, only whitespace follows it, and it is
      preceded by whitespace or by the start of `s`. */
  predicate TokenBefore(s: string, ws: set<char>, e: nat, w: string) {
    && |w| <= e <= |s|
    && s[e - |w|..e] == w
    && (forall k :: e <= k < |s| ==> s[k] in ws)
    && (e == |w| || s[e - |w| - 1] in ws)
  }

  /** `split()[-1]` is the last token: it ends where the trailing whitespace
      of `s` starts, and whitespace or the start of `s` precedes it. */
  lemma LastWord(s: string, ws: set<char>)
    requires Words(s, ws) != []
    ensures TokenBefore(s, ws, |s| - TrailingSpace(s, ws), Last(Words(s, ws)))
  {
    var e := LastWordAt(s, ws);
    LastWordShape(s, ws);
    TokenAtTrailing(s, ws, e, Last(Words(s, ws)));
  }

  /** A non-empty token followed only by whitespace ends where the trailing
      whitespace starts. */
  lemma TokenAtTrailing(s: string, ws: set<char>, e: nat, w: string)
    requires TokenBefore(s, ws, e, w) && w != "" && NoneIn(w, ws)
    ensures TokenBefore(s, ws, |s| - TrailingSpace(s, ws), w)
  {
    TokenEnd(s, ws, e, w);
    TrailingSpaceExact(s, ws, e);
  }

  /** The last token of `split()` is non-empty and free of whitespace. */
  lemma LastWordShape(s: string, ws: set<char>)
    requires Words(s, ws) != []
    ensures Last(Words(s, ws)) != "" && NoneIn(Last(Words(s, ws)), ws)
  {
    WordsTokens(s, ws);
    assert Last(Words(s, ws)) == Words(s, ws)[|Words(s, ws)| - 1];
  }

  /** A non-empty token ends right after a character outside `ws`. */
  lemma TokenEnd(s: string, ws: set<char>, e: nat, w: string)
    requires TokenBefore(s, ws, e, w) && w != "" && NoneIn(w, ws)
    ensures 1 <= e && s[e - 1] !in ws
  {
    assert s[e - 1] == s[e - |w|..e][|w| - 1];
  }

  /** The last token ends at some index followed only by whitespace. */
  lemma {:induction false} LastWordAt(s: string, ws: set<char>) returns (e: nat)
    requires Words(s, ws) != []
    ensures TokenBefore(s, ws, e, Last(Words(s, ws)))
    decreases |s|
  {
    var rest := AfterFirstWord(s, ws);
    AfterFirstWordSuffix(s, ws);
    if Words(rest, ws) == [] {
      e := OnlyWordBefore(s, ws);
    } else {
      var e' := LastWordAt(rest, ws);
      e := LaterWordBefore(s, ws, e');
    }
  }

  /** The text after the first token of `s`. */
  function AfterFirstWord(s: string, ws: set<char>): string {
    var t := s[LeadingSpace(s, ws)..];
    t[WordLength(t, ws)..]
  }

  /** The text after the first token is a shorter suffix. */
  lemma AfterFirstWordSuffix(s: string, ws: set<char>)
    requires Words(s, ws) != []
    ensures |AfterFirstWord(s, ws)| < |s|
    ensures AfterFirstWord(s, ws) == s[|s| - |AfterFirstWord(s, ws)|..]
  {
    var a := LeadingSpace(s, ws);
    WordsEmpty(s, ws);
    LeadingSpaceRun(s, ws);
    assert s[..|s|] == s;
    var t := s[a..];
    WordLengthRun(t, ws);
    assert t[WordLength(t, ws)..] == s[a + WordLength(t, ws)..];
  }

  /** The last token of `s` is the last token of what follows its first
      one, when there is one. */
  lemma LastOfWords(s: string, ws: set<char>)
    requires Words(s, ws) != [] && Words(AfterFirstWord(s, ws), ws) != []
    ensures Last(Words(s, ws)) == Last(Words(AfterFirstWord(s, ws), ws))
  {
    WordsUnfold(s, ws);
    var t := s[LeadingSpace(s, ws)..];
    LastCons(t[..WordLength(t, ws)], Words(AfterFirstWord(s, ws), ws));
  }

  /** The last token after the first one, placed back in `s`. */
  lemma LaterWordBefore(s: string, ws: set<char>, e': nat) returns (e: nat)
    requires Words(s, ws) != []
    requires Words(AfterFirstWord(s, ws), ws) != []
    requires TokenBefore(AfterFirstWord(s, ws), ws, e', Last(Words(AfterFirstWord(s, ws), ws)))
    ensures TokenBefore(s, ws, e, Last(Words(s, ws)))
  {
    var rest := AfterFirstWord(s, ws);
    AfterFirstFacts(s, ws);
    e := TokenShiftPast(s, rest, ws, e', Last(Words(rest, ws)), Last(Words(s, ws)));
  }

  /** What `LaterWordBefore` needs about the text after the first token. */
  lemma AfterFirstFacts(s: string, ws: set<char>)
    requires Words(s, ws) != [] && Words(AfterFirstWord(s, ws), ws) != []
    ensures var rest := AfterFirstWord(s, ws);
      && |rest| <= |s| && rest == s[|s| - |rest|..]
      && rest != "" && rest[0] in ws
      && Last(Words(rest, ws)) != "" && NoneIn(Last(Words(rest, ws)), ws)
      && Last(Words(s, ws)) == Last(Words(rest, ws))
  {
    LastOfWords(s, ws);
    LastWordShape(AfterFirstWord(s, ws), ws);
    AfterWord(s, ws);
    AfterFirstWordSuffix(s, ws);
  }

  /** A non-empty token of a suffix that starts with whitespace, placed
      back in `s`. */
  lemma TokenShiftPast(s: string, rest: string, ws: set<char>, e': nat, w: string, v: string) returns (e: nat)
    requires |rest| <= |s| && rest == s[|s| - |rest|..]
    requires rest != "" && rest[0] in ws
    requires w != "" && NoneIn(w, ws) && TokenBefore(rest, ws, e', w) && v == w
    ensures TokenBefore(s, ws, e, v)
  {
    TokenNotFirst(rest, ws, e', w);
    TokenShift(s, |s| - |rest|, rest, ws, e', w);
    e := |s| - |rest| + e';
  }

  /** What follows the first token starts with whitespace, when it holds a
      token. */
  lemma AfterWord(s: string, ws: set<char>)
    requires Words(AfterFirstWord(s, ws), ws) != []
    ensures AfterFirstWord(s, ws) != "" && AfterFirstWord(s, ws)[0] in ws
  {
    var t := s[LeadingSpace(s, ws)..];
    WordLengthRun(t, ws);
    WordsEmpty(AfterFirstWord(s, ws), ws);
  }

  /** A non-empty token of a string that starts with whitespace does not
      start the string. */
  lemma TokenNotFirst(s: string, ws: set<char>, e: nat, w: string)
    requires TokenBefore(s, ws, e, w) && w != "" && NoneIn(w, ws)
    requires s != "" && s[0] in ws
    ensures e > |w|
  {
    assert s[e - |w|] == s[e - |w|..e][0];
  }

  /** When the first token is also the last, it ends where the trailing
      whitespace starts. */
  lemma OnlyWordBefore(s: string, ws: set<char>) returns (e: nat)
    requires Words(s, ws) != [] && Words(AfterFirstWord(s, ws), ws) == []
    ensures TokenBefore(s, ws, e, Last(Words(s, ws)))
  {
    var a := LeadingSpace(s, ws);
    var t := s[a..];
    var n := WordLength(t, ws);
    WordsUnfold(s, ws);
    LeadingSpaceRun(s, ws);
    WordsEmpty(t[n..], ws);
    SliceOfSuffix(s, a, n);
    assert t[n..] == s[a + n..];
    e := a + n;
    if a > 0 {
      assert s[a - 1] == s[..a][a - 1];
    }
  }

  /** A token before index `e` of a suffix `s[off..]` that does not start
      the suffix is a token of `s` before `off + e`. */
  lemma TokenShift(s: string, off: nat, rest: string, ws: set<char>, e: nat, w: string)
    requires off <= |s| && rest == s[off..]
    requires TokenBefore(rest, ws, e, w) && e > |w|
    ensures TokenBefore(s, ws, off + e, w)
  {
    assert s[off + e - |w|..off + e] == rest[e - |w|..e];
    assert s[off + e..] == rest[e..];
    assert s[off + e - |w| - 1] == rest[e - |w| - 1];
  }

  /** One step of `Words` on a string with a token. */
  lemma WordsUnfold(s: string, ws: set<char>)
    requires Words(s, ws) != []
    ensures var t := s[LeadingSpace(s, ws)..];
      Words(s, ws) == [t[..WordLength(t, ws)]] + Words(AfterFirstWord(s, ws), ws)
  {
  }

  /** A whitespace run that ends `s` and follows a non-whitespace character
      is the whole trailing run. */
  lemma {:induction false} TrailingSpaceExact(s: string, ws: set<char>, m: nat)
    requires 1 <= m <= |s| && s[m - 1] !in ws
    requires forall k :: m <= k < |s| ==> s[k] in ws
    ensures TrailingSpace(s, ws) == |s| - m
    decreases |s|
  {
    if m < |s| {
      var init := s[..|s| - 1];
      assert init[m - 1] == s[m - 1];
      TrailingSpaceExact(init, ws, m);
    }
  }

  /** Slicing a suffix is slicing the string. */
  lemma SliceOfSuffix(s: string, a: nat, n: nat)
    requires a + n <= |s|
    ensures s[a..][..n] == s[a..a + n]
    ensures a + n < |s| ==> s[a..][n] == s[a + n]
  {
  }
}

=== FILE: timestamps.dfy ===
/** The parsed date-time of a transaction and the two strings the extractor
    renders from it: Python's `datetime.isoformat()` followed by "Z", and
    `strftime("%Y-%m-%dT00:00:00.000Z")`. The parse itself
    (`datetime.strptime(..., "%b %d, %Y %H:%M")`) is not modelled here; it is
    a parameter of the extractor. The field ranges are those `strptime` can
    produce for that pattern; whether a day exists in its month is the
    library's concern and is not re-checked. */
module Timestamps {
  import opened Wrappers

  type Year = y: int | 1 <= y <= 9999 witness 1
  type Month = m: int | 1 <= m <= 12 witness 1
  type Day = d: int | 1 <= d <= 31 witness 1
  type Hour = h: int | 0 <= h <= 23
  type Minute = m: int | 0 <= m <= 59

  /** A naive date-time as `strptime` yields it for "%b %d, %Y %H:%M";
      seconds and microseconds are always zero. */
  datatype DateTime = DateTime(year: Year, month: Month, day: Day, hour: Hour, minute: Minute)

  predicate IsDigit(c: char) {
    '0' <= c <= '9'
  }

  /** The decimal digit character for `d`. */
  function Digit(d: int): (c: char)
    requires 0 <= d < 10
    ensures IsDigit(c) && c as int - '0' as int == d
  {
    ('0' as int + d) as char
  }

  /** `n` in exactly two decimal digits, zero-padded (`%02d`). */
  function Pad2(n: int): (r: string)
    requires 0 <= n < 100
    ensures |r| == 2 && IsDigit(r[0]) && IsDigit(r[1])
    ensures Number(r) == n
  {
    var r := [Digit(n / 10), Digit(n % 10)];
    assert r[..1][..0] == "";
    assert Number(r[..1]) == n / 10;
    r
  }

  /** `n` in exactly four decimal digits, zero-padded (`%04d`). */
  function Pad4(n: int): (r: string)
    requires 0 <= n < 10000
    ensures |r| == 4 && forall k :: 0 <= k < 4 ==> IsDigit(r[k])
    ensures Number(r) == n
  {
    var hi := Pad2(n / 100);
    var lo := Pad2(n % 100);
    NumberAppend(hi, lo);
    hi + lo
  }

  /** The value of a string of decimal digits, most significant first. */
  function Number(s: string): int {
    if s == "" then 0
    else 10 * Number(s[..|s| - 1]) + (s[|s| - 1] as int - '0' as int)
  }

  /** Reading two digit strings one after the other. */
  lemma {:induction false} NumberAppend(a: string, b: string)
    requires |b| == 2
    ensures Number(a + b) == 100 * Number(a) + Number(b)
  {
    var v0 := b[0] as int - '0' as int;
    var v1 := b[1] as int - '0' as int;
    assert (a + b)[..|a + b| - 1] == a + [b[0]];
    assert (a + [b[0]])[..|a|] == a;
    assert Number(a + [b[0]]) == 10 * Number(a) + v0;
    assert b[..1][..0] == "";
    assert Number(b[..1]) == v0;
  }

  /** The calendar day of a date-time: "YYYY-MM-DD". */
  function DatePart(t: DateTime): string {
    Pad4(t.year) + "-" + Pad2(t.month) + "-" + Pad2(t.day)
  }

  /** `isoformat()` of a date-time with zero seconds and microseconds:
      "YYYY-MM-DDTHH:MM:SS". */
  function IsoFormat(t: DateTime): string {
    DatePart(t) + "T" + Pad2(t.hour) + ":" + Pad2(t.minute) + ":00"
  }

  /** The `createdAt` string: `isoformat()` followed by "Z". */
  function CreatedAt(t: DateTime): (r: string)
    ensures IsUtcDateTime(r)
  {
    IsoFormat(t) + "Z"
  }

  /** The `date` string: the same calendar day at midnight,
      "YYYY-MM-DDT00:00:00.000Z". */
  function DayStamp(t: DateTime): (r: string)
    ensures IsUtcMidnight(r)
  {
    DatePart(t) + "T00:00:00.000Z"
  }

  /** `s` has the shape of an RFC 3339 (section 5.6) `date-time` with whole
      seconds and the "Z" offset: "YYYY-MM-DDTHH:MM:SSZ". */
  predicate IsUtcDateTime(s: string) {
    && |s| == 20
    && (forall k :: k in {0, 1, 2, 3, 5, 6, 8, 9, 11, 12, 14, 15, 17, 18} ==> 0 <= k < |s| && IsDigit(s[k]))
    && s[4] == '-' && s[7] == '-' && s[10] == 'T'
    && s[13] == ':' && s[16] == ':' && s[19] == 'Z'
  }

  /** `s` is a calendar day at midnight UTC with milliseconds:
      "YYYY-MM-DDT00:00:00.000Z". */
  predicate IsUtcMidnight(s: string) {
    && |s| == 24
    && (forall k :: k in {0, 1, 2, 3, 5, 6, 8, 9} ==> 0 <= k < |s| && IsDigit(s[k]))
    && s[4] == '-' && s[7] == '-'
    && s[10..] == "T00:00:00.000Z"
  }

  /** Reads a `createdAt` string back into the date-time it was rendered
      from, or None when it is not of that shape or a field is out of range. */
  function ReadCreatedAt(s: string): (r: Option<DateTime>)
    ensures r.Some? ==> IsUtcDateTime(s)
  {
    if !IsUtcDateTime(s) then None
    else
      var y := Number(s[0..4]);
      var mo := Number(s[5..7]);
      var d := Number(s[8..10]);
      var h := Number(s[11..13]);
      var mi := Number(s[14..16]);
      if 1 <= y <= 9999 && 1 <= mo <= 12 && 1 <= d <= 31 && 0 <= h <= 23 && 0 <= mi <= 59
        && s[17..19] == "00"
      then Some(DateTime(y, mo, d, h, mi))
      else None
  }

  /** Rendering loses nothing: the `createdAt` string determines the date-time. */
  lemma CreatedAtRoundTrip(t: DateTime)
    ensures ReadCreatedAt(CreatedAt(t)) == Some(t)
  {
    var s := CreatedAt(t);
    assert s[0..4] == Pad4(t.year);
    assert s[5..7] == Pad2(t.month);
    assert s[8..10] == Pad2(t.day);
    assert s[11..13] == Pad2(t.hour);
    assert s[14..16] == Pad2(t.minute);
    assert s[17..19] == "00";
  }

  /** `createdAt` and `date` name the same calendar day. */
  lemma SameDay(t: DateTime)
    ensures CreatedAt(t)[..10] == DatePart(t) == DayStamp(t)[..10]
  {
  }
}

=== FILE: wrappers.dfy ===
/** Failure-carrying values shared by the other modules. */
module Wrappers {

  /** A value that may be absent; used for library routines that can fail. */
  datatype Option<+T> = None | Some(value: T) {

    /** The carried value, or `default` when there is none. */
    function GetOr(default: T): T {
      match this
      case Some(v) => v
      case None => default
    }
  }

  /** A value or the reason it could not be computed (an exception in the source). */
  datatype Result<+R, +E> = Success(value: R) | Failure(error: E)
}
